=== FILE: README.md ===
# Localization benchmark supervisor — a Dafny model

This project models the core of `LocalizationBenchmarkSupervisor`, the ROS node that runs one localization benchmark. The node does three things:

- It plans a tour over the free-space skeleton graph of a map, using a greedy nearest-remaining-vertex walk over precomputed shortest-path costs.
- It drives the navigation action server through that tour one goal at a time. Each result is classified as reached or not reached against the ground-truth pose. Every step is written to a run-event ledger.
- It records telemetry (scans, particle sets, pose estimates, pose corrections, ground truth) once the run has started, and takes periodic process snapshots.

The model is functional. Immutable datatypes and pure functions stand in for the node's fields and callbacks. The dispatch loop is a step function folded over a sequence of per-iteration navigation outcomes.

| module | file | what it models |
|---|---|---|
| `Wrappers` | `wrappers.dfy` | `Option` and `Result` |
| `Geometry` | `geometry.dfy` | positions and the goal-tolerance test |
| `Events` | `events.dfy` | the event vocabulary of the ledger, and the watchdog and interrupt event pairs |
| `Planner` | `planner.dfy` | the cost table, component pruning and the greedy traversal |
| `Dispatcher` | `dispatcher.dfy` | the goal-dispatch loop, its counters and its event trace |
| `Supervisor` | `supervisor.dfy` | `start_run` end to end: plan, waypoints, dispatch |
| `Recorders` | `recorders.dfy` | the recorder callbacks, gated on `run_started`; the covariance reshape; the particle-poses field |
| `Snapshots` | `snapshots.dfy` | the process-snapshot tick and its file naming |

Inputs that come from outside the node are parameters:

- Dijkstra's shortest paths, as one ordered `(node, cost)` row per vertex.
- The connected components.
- The random start vertex and the random goal headings.
- What the action client reports in each loop iteration (`GoalOutcome`).
- What `psutil` returns per tracked process.
- Whether `pickle.dump` raises `TypeError`.

The distance test uses exact `real` arithmetic. `WithinTolerance` compares the squared distance with the squared tolerance. `Geometry.WithinToleranceMatchesDistance` shows this agrees with the source's `sqrt(d²) < tolerance` for any non-negative square root.

Two behaviours of the code are easy to overlook, and the model keeps them:

- **Serialisation failure in the snapshot tick.** A tick whose `pickle.dump` raises `TypeError` still leaves an empty or partial file, because the file was already opened for writing. `Snapshots.Tick` records such a file as `Truncated`, and the tick counter advances as usual. The model keys each file by the tick that wrote it. Its name on disk is `ps_{tick:08d}.pkl`, and `Snapshots.FileNameInjective` shows that two ticks never write the same name.
- **Missing ground truth.** When a goal ends `SUCCEEDED` before any ground-truth message has arrived, the code reads `.pose` of `None` and raises `AttributeError`, which writes no event. The dispatcher stops with `NoGroundTruth` and writes nothing further.

## Model

All source cells refer to `src/localization_performance_modelling_ros/localization_benchmark_supervisor.py`.

| member | source | states |
|---|---|---|
| Planner.BuildCosts | src/localization_performance_modelling_ros/localization_benchmark_supervisor.py:169-173 | every vertex keeps its row, and an entry is kept exactly when Dijkstra reached it and it is not the row's own vertex |
| Planner.BuildCostsKeepsOrder | src/localization_performance_modelling_ros/localization_benchmark_supervisor.py:169-173 | when Dijkstra's row for `i` names `i` once, the built row is that row with the self entry cut out and every other entry kept in Dijkstra's order, the order in which the walk breaks cost ties |
| Planner.BuildCostsComplete | src/localization_performance_modelling_ros/localization_benchmark_supervisor.py:169-173 | if Dijkstra reached the whole component from each of its vertices, every vertex's row names every other vertex of the component |
| Planner.LargeComponents | src/localization_performance_modelling_ros/localization_benchmark_supervisor.py:176 | a component is kept iff it has at least two vertices |
| Planner.SmallNodesExact | src/localization_performance_modelling_ros/localization_benchmark_supervisor.py:176-179 | a vertex is removed iff its component has fewer than two vertices |
| Planner.PruneExact | src/localization_performance_modelling_ros/localization_benchmark_supervisor.py:176-179 | a vertex survives pruning iff its component has at least two vertices, and a survivor's component is unchanged |
| Planner.ArgMin | src/localization_performance_modelling_ros/localization_benchmark_supervisor.py:192 | the index returned holds a minimum, and it is the first index that does (`np.argmin`) |
| Planner.Candidates | src/localization_performance_modelling_ros/localization_benchmark_supervisor.py:190 | the candidates are exactly the row's entries whose vertex is still unvisited |
| Planner.Greedy | src/localization_performance_modelling_ros/localization_benchmark_supervisor.py:186-195 | a successful walk visits every remaining vertex exactly once; the only failure is an empty candidate list |
| Planner.SelectsFirstNearest | src/localization_performance_modelling_ros/localization_benchmark_supervisor.py:190-192 | the chosen entry is the first unvisited entry of least cost in the current row, and it is unique |
| Planner.GreedyMatchesReference | src/localization_performance_modelling_ros/localization_benchmark_supervisor.py:186-195 | the walk returns `t` iff at every step `t` takes the first cheapest unvisited vertex in the row of the vertex before it, and then removes it |
| Planner.GreedyCovers | src/localization_performance_modelling_ros/localization_benchmark_supervisor.py:189-195 | over a complete cost table with no self entries, the walk cannot fail, and it never emits its current vertex first |
| Planner.PlanTour | src/localization_performance_modelling_ros/localization_benchmark_supervisor.py:166-195 | planning fails with insufficient nodes iff fewer than two vertices survive pruning; a tour lists the start component once per vertex |
| Planner.PlanCoversStartComponent | src/localization_performance_modelling_ros/localization_benchmark_supervisor.py:170-195 | when the start component has at least two vertices, the loop runs once per vertex; the tour holds every vertex of the component exactly once, the start included, and never begins with the start |
| Planner.PlanIsGreedyTour | src/localization_performance_modelling_ros/localization_benchmark_supervisor.py:181-195 | the planner returns `t` iff at least two vertices survive pruning and `t` is the reference greedy tour of the start component |
| Geometry.WithinToleranceMatchesDistance | src/localization_performance_modelling_ros/localization_benchmark_supervisor.py:250-253 | comparing squares is the same as comparing the Euclidean distance with the tolerance |
| Dispatcher.Start | src/localization_performance_modelling_ros/localization_benchmark_supervisor.py:217-220 | the loop starts with every planned waypoint queued, nothing counted, a ledger holding only `run_start`, and the dispatcher invariant |
| Dispatcher.Classify | src/localization_performance_modelling_ros/localization_benchmark_supervisor.py:249-263 | a goal is reached iff the status is SUCCEEDED and the ground truth is within tolerance; SUCCEEDED with no ground truth ever received is the crash case |
| Dispatcher.Step | src/localization_performance_modelling_ros/localization_benchmark_supervisor.py:223-273 | which of the six ways out applies to which outcome, both directions; a goal is popped and counted iff the server answered and the queue was not empty; a reached goal adds one success and `target_pose_set, target_pose_reached`, any other classified goal one failure and `target_pose_set, target_pose_not_reached`, each followed by `run_completed` iff the queue is then empty; a timeout appends `target_pose_set, waypoint_timeout, supervisor_finished` and classifies nothing; an unreachable server appends `failed_to_communicate_with_navigation_node`, an empty queue `insufficient_number_of_poses_in_traversal_path`, shutdown nothing, and a missing ground truth only `target_pose_set` |
| Dispatcher.Settle | src/localization_performance_modelling_ros/localization_benchmark_supervisor.py:267-271 | after a classified goal the run completes with `run_completed` iff nothing is left to send |
| Dispatcher.Dispatch | src/localization_performance_modelling_ros/localization_benchmark_supervisor.py:223-273 | a loop still running has sent one goal per iteration |
| Dispatcher.StepPreservesInv | src/localization_performance_modelling_ros/localization_benchmark_supervisor.py:230-265 | one iteration keeps: remaining + sent = num_goals; sent = succeeded + failed, plus one for a goal in flight when the loop ended; rejected = 0; the counters equal the counts of their events in the ledger; every `target_pose_set` but a trailing one is followed by one outcome event; every `supervisor_finished` follows its cause |
| Dispatcher.DispatchPreservesInv | src/localization_performance_modelling_ros/localization_benchmark_supervisor.py:217-265 | the same invariant holds after any number of iterations |
| Dispatcher.NeverEmptyAtLoopHead | src/localization_performance_modelling_ros/localization_benchmark_supervisor.py:230-232 | a loop that never has an empty queue at its head never writes `insufficient_number_of_poses_in_traversal_path` |
| Dispatcher.NominalRunCompletes | src/localization_performance_modelling_ros/localization_benchmark_supervisor.py:226-271 | with a classifiable outcome for every queued goal, the loop ends with `run_completed`, every goal was sent, and each was counted once as succeeded or failed |
| Dispatcher.NominalRunCountsReached | src/localization_performance_modelling_ros/localization_benchmark_supervisor.py:223-271 | over a run with a classifiable outcome for every queued goal, the k-th outcome decides the k-th goal: the succeeded counter grows by exactly the number of goals their own outcome classifies as reached (SUCCEEDED and within tolerance), and the failed counter by all the others |
| Events.ParseName | src/localization_performance_modelling_ros/localization_benchmark_supervisor.py:219-296 | every event name written to the ledger reads back as its event, so no two events share a name |
| Events.OnRunTimeout | src/localization_performance_modelling_ros/localization_benchmark_supervisor.py:293-297 | the watchdog appends `run_timeout, supervisor_finished`, which adds one `supervisor_finished` and keeps every `supervisor_finished` directly after its cause |
| Events.OnRosShutdown | src/localization_performance_modelling_ros/localization_benchmark_supervisor.py:275-281 | the interrupt appends `ros_shutdown, supervisor_finished`, with the same guarantees |
| Supervisor.Waypoints | src/localization_performance_modelling_ros/localization_benchmark_supervisor.py:197-204 | one goal pose per tour vertex, in tour order, at that vertex's position with the heading drawn for it |
| Supervisor.StartRun | src/localization_performance_modelling_ros/localization_benchmark_supervisor.py:164-273 | `insufficient_number_of_nodes_...` is the whole ledger iff fewer than two vertices survive pruning; an empty candidate list writes no event; a failed plan sends no goal; a dispatched run has one waypoint per tour vertex at that vertex's position, opens its ledger with `run_start`, and keeps the dispatcher invariant |
| Supervisor.StartRunFollowsPlan | src/localization_performance_modelling_ros/localization_benchmark_supervisor.py:186-273 | the run dispatches iff planning succeeds, and then its tour is the planner's greedy tour and its final state is the dispatch loop run from the waypoints of that tour, in tour order |
| Supervisor.PlannedRunNeverLacksPoses | src/localization_performance_modelling_ros/localization_benchmark_supervisor.py:197-232 | when Dijkstra reached the whole start component, the tour has at least two waypoints and `insufficient_number_of_poses_in_traversal_path` is never written |
| Supervisor.NominalRunVisitsComponent | src/localization_performance_modelling_ros/localization_benchmark_supervisor.py:186-271 | with a classifiable outcome per waypoint, the run completes having sent one goal per vertex of the start component |
| Recorders.ReshapeRoundTrip | src/localization_performance_modelling_ros/localization_benchmark_supervisor.py:364 | the 36 to 6x6 row-major reshape loses nothing: flattening it gives back the covariance array |
| Recorders.FlattenRoundTrip | src/localization_performance_modelling_ros/localization_benchmark_supervisor.py:364 | every 6x6 matrix is the reshape of its flattening |
| Recorders.CorrectionRowOf | src/localization_performance_modelling_ros/localization_benchmark_supervisor.py:359-374 | the covariance fields are flat entries 0, 1, 7 and 35 of the array |
| Recorders.ParticlesRowOf | src/localization_performance_modelling_ros/localization_benchmark_supervisor.py:319-334 | the row carries the message's stamp and frame, counts the particles, and its k-th pose triple is the k-th particle's x, y and heading |
| Recorders.OnScan | src/localization_performance_modelling_ros/localization_benchmark_supervisor.py:299-313 | the first-scan flag is set whether or not the run has started; once it has started the scan is appended to the scan table and no other table changes |
| Recorders.OnParticles | src/localization_performance_modelling_ros/localization_benchmark_supervisor.py:315-335 | nothing is recorded before the run starts; afterwards the particles table gains the message's row and no other table changes |
| Recorders.OnCorrection | src/localization_performance_modelling_ros/localization_benchmark_supervisor.py:358-375 | nothing is recorded before the run starts; afterwards the corrections table gains the message's row and no other table changes |
| Recorders.OnGroundTruth | src/localization_performance_modelling_ros/localization_benchmark_supervisor.py:376-393 | the latest ground truth is kept whether or not the run has started; once it has started, the ground-truth table gains the row (t, x, y, theta, v_x, v_y, v_theta) of the message and no other table changes |
| Recorders.OnEstimateTick | src/localization_performance_modelling_ros/localization_benchmark_supervisor.py:336-355 | nothing is recorded before the run starts or when the transform lookup fails; otherwise the estimates table gains the row (t, x, y, theta) of the looked-up transform and no other table changes |
| Recorders.ReplayBeforeStart | src/localization_performance_modelling_ros/localization_benchmark_supervisor.py:300-302 | before `run_started` no delivery of any kind adds a row |
| Recorders.RecordsOnlyAfterStart | src/localization_performance_modelling_ros/localization_benchmark_supervisor.py:219-220 | the tables hold exactly the rows of what arrived after the run started, and nothing of what arrived before |
| Recorders.ReplayNotesFirstScan | src/localization_performance_modelling_ros/localization_benchmark_supervisor.py:299-302 | the first-scan flag is set iff some scan arrived, before or after the start |
| Recorders.ReplayKeepsLatestGroundTruth | src/localization_performance_modelling_ros/localization_benchmark_supervisor.py:376-379 | the latest ground truth is the last odometry message received, before or after the start |
| Recorders.AsWrittenMergesParticles | src/localization_performance_modelling_ros/localization_benchmark_supervisor.py:320-328 | with two or more particles the poses field as written differs from the intended one |
| Recorders.PosesFieldCommas | src/localization_performance_modelling_ros/localization_benchmark_supervisor.py:320-334 | the intended field separates all 3n values of n particles |
| Snapshots.Strip | src/localization_performance_modelling_ros/localization_benchmark_supervisor.py:398-412 | the snapshot is no longer than the tracked list, and no entry holds `connections`, `memory_maps` or `environ` |
| Snapshots.StripExact | src/localization_performance_modelling_ros/localization_benchmark_supervisor.py:398-412 | an entry is in the snapshot iff some process was alive, had all three keys, and is that entry once they are deleted |
| Snapshots.StripAppend | src/localization_performance_modelling_ros/localization_benchmark_supervisor.py:398-412 | the snapshot keeps the order of the tracked processes: the probes of one list followed by another give the one snapshot followed by the other, and each probe contributes at most its own stripped entry (`StripSingle`) |
| Snapshots.AllDeadGivesEmpty | src/localization_performance_modelling_ros/localization_benchmark_supervisor.py:399-403 | when every tracked process has died the snapshot is the empty list |
| Snapshots.FileNameRoundTrip | src/localization_performance_modelling_ros/localization_benchmark_supervisor.py:396 | the tick number reads back from `ps_{i:08d}.pkl` |
| Snapshots.FileNameInjective | src/localization_performance_modelling_ros/localization_benchmark_supervisor.py:396 | two ticks share a file name iff they are the same tick |
| Snapshots.Tick | src/localization_performance_modelling_ros/localization_benchmark_supervisor.py:395-419 | the count advances by exactly one even when pickling raises `TypeError`; only the current tick's file is written, it holds the snapshot or is truncated, and every earlier file is left as it was |
| Snapshots.TickNames | src/localization_performance_modelling_ros/localization_benchmark_supervisor.py:396-397 | the names on disk after a tick are those before it plus `ps_{count:08d}.pkl` |
| Snapshots.Ticks | src/localization_performance_modelling_ros/localization_benchmark_supervisor.py:395-419 | every timer firing advances the count by one, so n ticks advance it by n |
| Snapshots.TicksContents | src/localization_performance_modelling_ros/localization_benchmark_supervisor.py:395-419 | after a sequence of ticks, the file of the i-th tick holds the stripped snapshot of that tick's probes when pickling succeeded, and is truncated when it raised `TypeError` |
| Snapshots.TicksKeepsEarlier | src/localization_performance_modelling_ros/localization_benchmark_supervisor.py:396-397 | the file an earlier tick wrote keeps its contents through any number of later ticks, since each of them writes only its own file |
| Snapshots.NamesOfCountedTicks | src/localization_performance_modelling_ros/localization_benchmark_supervisor.py:396 | when the files are exactly those of the ticks counted so far, their names on disk are `ps_00000000.pkl` up to the name of the last counted tick |
| Snapshots.TicksFromStart | src/localization_performance_modelling_ros/localization_benchmark_supervisor.py:395-419 | after n ticks from the start exactly n files exist, named for ticks 0 to n-1, whatever pickling did |

## Left out

- Dijkstra's all-pairs search, `connected_components` and `node_connected_component` are library algorithms. They are inputs: the shortest-path rows and the component list.
- `random.choice` of the start vertex and the random goal headings are parameters. The start is required to be a surviving vertex, which is what `random.choice` over the pruned nodes guarantees.
- Quaternion-to-yaw conversion (`pyquaternion`) is floating-point trigonometry. Messages carry their heading already decoded.
- Floating-point arithmetic is modelled as exact `real`s, including the `sqrt` of the distance test.
- CSV rendering of rows, `to_csv`, file appends, `pickle` and `psutil` are I/O and library code. Rows are datatypes, and a snapshot file is its contents. The only text modelled is the particle-poses field, where the source has a defect.
- Publishing the tour for visualisation, `current_goal` and log messages have no effect on the modelled state.
- Timers and the concurrency between callbacks and the dispatch loop are left out. The watchdog and interrupt event pairs are modelled as single appends. An interleaving can therefore put another event between the dispatch loop's `target_pose_set` and its outcome, which the ledger invariant does not cover.
- The wait for the first scan at the start of `start_run` is left out. It is a polling loop on the clock; `ReplayNotesFirstScan` states when its flag becomes true.
- `main`'s exception routing and `end_run` are control flow over I/O.
- `rospy.sleep` being interrupted by shutdown is folded into the next iteration's `shutdown` flag.
- Dispatcher.Step: an exception other than `AttributeError` from the action client, for example from `get_state`, is not modelled.
- Snapshots.Tick: an `IOError` from `open` and exceptions other than `TypeError` from `pickle.dump` are not modelled, because the source does not catch them and they end the timer thread.

## Findings

| source | as written | input that shows it | evidently intended | confidence | as-written member | corrected member |
|---|---|---|---|---|---|---|
| src/localization_performance_modelling_ros/localization_benchmark_supervisor.py:320-328 | each particle is rendered `x, y, theta` and the renderings are concatenated with no separator, so one particle's heading runs into the next particle's x | two particles (1.0, 2.0, 3.0) and (4.0, 5.0, 6.0), rendered as floats, give the field `1.0, 2.0, 3.04.0, 5.0, 6.0`: five fields for six values | `, ` between every value: each particle's own values are joined with `, `, and the row's other columns and its `n` column (the particle count) imply one field per value | high (not executed) | Recorders.AsWrittenMergesParticles | Recorders.PosesFieldCommas |

`Recorders.PosesAsWritten` is the field as written. `Recorders.AsWrittenCommas` proves it has only 2n separators for n particles, and `AsWrittenMergesParticles` proves it differs from the intended field once n ≥ 2. With one particle the two agree (`AsWrittenAgreesOnOneParticle`). `Recorders.PosesField` is the corrected field. `PosesFieldCommas` proves it has 3n − 1 separators, one between each pair of the 3n values. The recorded row (`ParticlesRowOf`) keeps the 3n values in that order.

=== FILE: dispatcher.dfy ===
/**
 * The goal-dispatch loop of `start_run`: waypoints are popped from the front of
 * the planned tour and sent to the navigation action server one at a time; each
 * result is classified as reached or not reached; the loop ends on completion,
 * timeout, an unreachable server, a missing ground-truth pose or shutdown.
 *
 * What the action client and the ROS clock report for one loop iteration is an
 * input (`GoalOutcome`); one call of `Step` is one iteration of the `while` loop.
 */
module Dispatcher {
  import opened Wrappers
  import opened Geometry
  import opened Events

  /** `actionlib_msgs/GoalStatus`, in the order of its numeric codes 0..9. */
  datatype GoalStatus =
    | Pending | Active | Preempted | Succeeded | Aborted
    | Rejected | Preempting | Recalling | Recalled | Lost

  /** A goal pose: a tour vertex's position with a heading drawn at planning time. */
  datatype Waypoint = Waypoint(position: Point, yaw: real)

  /** What the outside world answers during one iteration of the dispatch loop. */
  datatype GoalOutcome = GoalOutcome(
    shutdown: bool,            // `rospy.is_shutdown()` at the loop head
    serverAvailable: bool,     // `wait_for_server` returned true within 5 s
    resultInTime: bool,        // `wait_for_result` returned true within the waypoint timeout
    status: GoalStatus,        // `get_state()` after the result
    groundTruth: Option<Point> // position of `latest_ground_truth_pose_msg`, if any was received
  )

  datatype Counters = Counters(sent: nat, succeeded: nat, failed: nat, rejected: nat)

  /** Why the dispatch loop stopped. */
  datatype Stop =
    | Completed             // the tour is exhausted after a classified goal
    | NavigationUnreachable // the action server did not answer
    | EmptyTour             // nothing to pop at the loop head
    | TimedOut              // no result within the waypoint timeout
    | NoGroundTruth         // succeeded status but no ground-truth pose was ever received
    | ShutDown              // ROS shut down between goals

  datatype Verdict = Reached | NotReached | GroundTruthUnset

  datatype State = State(
    plan: seq<Waypoint>,    // the tour as planned, for stating invariants
    queue: seq<Waypoint>,   // `traversal_path_poses`, consumed from the front
    numGoals: nat,
    counters: Counters,
    events: seq<Event>,     // what this loop wrote to the run-event ledger
    stop: Option<Stop>)

  /** Lines 217-220: the run starts with every planned waypoint queued and nothing counted. */
  function Start(plan: seq<Waypoint>): (s: State)
    ensures Inv(s) && s.stop.None? && s.queue == plan
    ensures s.counters == Counters(0, 0, 0, 0) && s.events == [RunStart]
  {
    State(plan, plan, |plan|, Counters(0, 0, 0, 0), [RunStart], None)
  }

  /**
   * Lines 249-263: a goal is reached only when the navigation status is
   * SUCCEEDED and the latest ground-truth position is within tolerance of the
   * goal. Reading the position of a ground-truth message never received fails.
   */
  function Classify(status: GoalStatus, goal: Point, groundTruth: Option<Point>, tolerance: real): (v: Verdict)
    ensures v == Reached <==>
      status == Succeeded && groundTruth.Some? && WithinTolerance(goal, groundTruth.value, tolerance)
    ensures v == GroundTruthUnset <==> status == Succeeded && groundTruth.None?
  {
    if status != Succeeded then NotReached
    else match groundTruth
      case None => GroundTruthUnset
      case Some(p) => if WithinTolerance(goal, p, tolerance) then Reached else NotReached
  }

  /** Lines 265-271: after a classified goal, the run completes when nothing is left to send. */
  function Settle(s: State): (s': State)
    requires s.stop.None?
    ensures s'.queue == s.queue && s'.counters == s.counters
    ensures s'.stop.None? <==> s.queue != []
    ensures s'.stop.Some? ==> s'.stop == Some(Completed) && s'.events == s.events + [RunCompleted]
    ensures s'.stop.None? ==> s'.events == s.events
  {
    if s.queue == [] then s.(events := s.events + [RunCompleted], stop := Some(Completed))
    else s
  }

  /** Whether an iteration with outcome `o` from state `s` pops and sends a goal. */
  predicate SendsGoal(s: State, o: GoalOutcome)
  {
    !o.shutdown && o.serverAvailable && s.queue != []
  }

  /** One iteration of the dispatch loop, lines 223-273. */
  function Step(s: State, o: GoalOutcome, tolerance: real): (s': State)
    requires s.stop.None?
    ensures s'.plan == s.plan && s'.numGoals == s.numGoals
    ensures s'.stop.None? ==> s'.queue != []
    ensures s'.counters.rejected == s.counters.rejected
    ensures s'.counters.sent == s.counters.sent + (if SendsGoal(s, o) then 1 else 0)
    ensures SendsGoal(s, o) ==> s'.queue == s.queue[1..]
    ensures !SendsGoal(s, o) ==> s'.queue == s.queue && s'.stop.Some?
    ensures s'.stop == Some(ShutDown) <==> o.shutdown
    ensures s'.stop == Some(NavigationUnreachable) <==> !o.shutdown && !o.serverAvailable
    ensures s'.stop == Some(EmptyTour) <==> !o.shutdown && o.serverAvailable && s.queue == []
    ensures s'.stop == Some(TimedOut) <==> SendsGoal(s, o) && !o.resultInTime
    ensures s'.stop == Some(TimedOut) ==>
      s'.events == s.events + [TargetPoseSet] + FinishPair(WaypointTimeout)
      && s'.counters.succeeded == s.counters.succeeded && s'.counters.failed == s.counters.failed
    ensures s'.stop == Some(Completed) <==>
      (SendsGoal(s, o) && o.resultInTime && s.queue[1..] == []
       && Classify(o.status, s.queue[0].position, o.groundTruth, tolerance) != GroundTruthUnset)
    ensures s'.stop == Some(NoGroundTruth) <==>
      (SendsGoal(s, o) && o.resultInTime
       && Classify(o.status, s.queue[0].position, o.groundTruth, tolerance) == GroundTruthUnset)
    // What each way out writes to the ledger
    ensures s'.stop == Some(ShutDown) ==> s'.events == s.events
    ensures s'.stop == Some(NavigationUnreachable) ==> s'.events == s.events + [FailedToCommunicate]
    ensures s'.stop == Some(EmptyTour) ==> s'.events == s.events + [InsufficientPoses]
    ensures s'.stop == Some(NoGroundTruth) ==>
      s'.events == s.events + [TargetPoseSet] && s'.counters.succeeded == s.counters.succeeded
      && s'.counters.failed == s.counters.failed
    // A classified goal: the verdict decides which counter and which outcome event
    ensures (SendsGoal(s, o) && o.resultInTime
             && Classify(o.status, s.queue[0].position, o.groundTruth, tolerance) == Reached) ==>
      && s'.counters.succeeded == s.counters.succeeded + 1 && s'.counters.failed == s.counters.failed
      && s'.events == s.events + [TargetPoseSet, TargetPoseReached] + (if s.queue[1..] == [] then [RunCompleted] else [])
    ensures (SendsGoal(s, o) && o.resultInTime
             && Classify(o.status, s.queue[0].position, o.groundTruth, tolerance) == NotReached) ==>
      && s'.counters.failed == s.counters.failed + 1 && s'.counters.succeeded == s.counters.succeeded
      && s'.events == s.events + [TargetPoseSet, TargetPoseNotReached] + (if s.queue[1..] == [] then [RunCompleted] else [])
  {
    if o.shutdown then s.(stop := Some(ShutDown))
    else if !o.serverAvailable then
      s.(events := s.events + [FailedToCommunicate], stop := Some(NavigationUnreachable))
    else if s.queue == [] then
      s.(events := s.events + [InsufficientPoses], stop := Some(EmptyTour))
    else
      var goal := s.queue[0];
      var sent := s.(queue := s.queue[1..],
                     counters := s.counters.(sent := s.counters.sent + 1),
                     events := s.events + [TargetPoseSet]);
      if !o.resultInTime then
        sent.(events := sent.events + FinishPair(WaypointTimeout), stop := Some(TimedOut))
      else
        match Classify(o.status, goal.position, o.groundTruth, tolerance)
        case GroundTruthUnset => sent.(stop := Some(NoGroundTruth))
        case Reached =>
          Settle(sent.(counters := sent.counters.(succeeded := sent.counters.succeeded + 1),
                       events := sent.events + [TargetPoseReached]))
        case NotReached =>
          Settle(sent.(counters := sent.counters.(failed := sent.counters.failed + 1),
                       events := sent.events + [TargetPoseNotReached]))
  }

  /** The loop run over a sequence of per-iteration outcomes, until it stops or they run out. */
  function Dispatch(s: State, outcomes: seq<GoalOutcome>, tolerance: real): (s': State)
    ensures s'.plan == s.plan && s'.numGoals == s.numGoals
    ensures s.stop.Some? ==> s' == s
    ensures s'.stop.None? ==> s'.counters.sent == s.counters.sent + |outcomes|
    ensures s.counters.sent <= s'.counters.sent
    decreases |outcomes|
  {
    if s.stop.Some? || outcomes == [] then s
    else Dispatch(Step(s, outcomes[0], tolerance), outcomes[1..], tolerance)
  }

  // ---------------------------------------------------------------------------
  // Invariants

  /** A goal was sent but never classified: the loop ended while it was in flight. */
  predicate InFlight(stop: Option<Stop>)
  {
    stop == Some(TimedOut) || stop == Some(NoGroundTruth)
  }

  predicate IsGoalOutcome(e: Event)
  {
    e == TargetPoseReached || e == TargetPoseNotReached || e == WaypointTimeout
  }

  /** Every `target_pose_set` but a trailing one is directly followed by that goal's outcome. */
  ghost predicate OutcomeFollowsSet(log: seq<Event>)
  {
    forall k :: 0 <= k < |log| - 1 && log[k] == TargetPoseSet ==> IsGoalOutcome(log[k + 1])
  }

  predicate EndsWith(log: seq<Event>, e: Event)
  {
    |log| > 0 && log[|log| - 1] == e
  }

  /**
   * What holds at every loop head and after the loop ends: the queue is the
   * unsent suffix of the plan, so remaining + sent == num_goals; each sent goal
   * was classified once (except one in flight when the loop ended); nothing is
   * ever rejected; and the counters agree with the events written.
   */
  ghost predicate Inv(s: State)
  {
    && s.numGoals == |s.plan|
    && s.counters.sent <= |s.plan|
    && s.queue == s.plan[s.counters.sent..]
    && s.counters.rejected == 0
    && s.counters.sent == s.counters.succeeded + s.counters.failed + (if InFlight(s.stop) then 1 else 0)
    && (s.stop == Some(Completed) ==> s.queue == [])
    && Count(s.events, TargetPoseSet) == s.counters.sent
    && Count(s.events, TargetPoseReached) == s.counters.succeeded
    && Count(s.events, TargetPoseNotReached) == s.counters.failed
    && Count(s.events, WaypointTimeout) == (if s.stop == Some(TimedOut) then 1 else 0)
    && Count(s.events, RunCompleted) == (if s.stop == Some(Completed) then 1 else 0)
    && OutcomeFollowsSet(s.events)
    && (EndsWith(s.events, TargetPoseSet) <==> s.stop == Some(NoGroundTruth))
    && FinishedFollowsCause(s.events)
  }

  lemma OutcomeFollowsSetAppend(a: seq<Event>, b: seq<Event>)
    requires OutcomeFollowsSet(a) && OutcomeFollowsSet(b)
    requires !EndsWith(a, TargetPoseSet) || (b != [] && IsGoalOutcome(b[0]))
    ensures OutcomeFollowsSet(a + b)
  {
    var ab := a + b;
    forall k | 0 <= k < |ab| - 1 && ab[k] == TargetPoseSet
      ensures IsGoalOutcome(ab[k + 1])
    {
      if k < |a| - 1 {
        assert a[k] == TargetPoseSet && ab[k + 1] == a[k + 1];
      } else if k >= |a| {
        assert b[k - |a|] == TargetPoseSet && ab[k + 1] == b[k + 1 - |a|];
      }
    }
  }

  lemma CountSingle(x: Event, e: Event)
    ensures Count([x], e) == if x == e then 1 else 0
  {
    assert [x][..0] == [];
  }

  lemma CountPair(x: Event, y: Event, e: Event)
    ensures Count([x, y], e) == (if x == e then 1 else 0) + (if y == e then 1 else 0)
  {
    assert [x, y][..1] == [x];
    CountSingle(x, e);
  }

  /** Appending `[TargetPoseSet, outcome]` keeps the trace shape and bumps two counts. */
  lemma AppendClassified(log: seq<Event>, outcome: Event)
    requires outcome == TargetPoseReached || outcome == TargetPoseNotReached
    requires OutcomeFollowsSet(log) && !EndsWith(log, TargetPoseSet) && FinishedFollowsCause(log)
    ensures var log' := log + [TargetPoseSet, outcome];
      && OutcomeFollowsSet(log') && !EndsWith(log', TargetPoseSet) && FinishedFollowsCause(log')
      && forall e :: Count(log', e) == Count(log, e) + (if e == TargetPoseSet then 1 else 0) + (if e == outcome then 1 else 0)
  {
    var b := [TargetPoseSet, outcome];
    OutcomeFollowsSetAppend(log, b);
    AppendKeepsFinishedFollowsCause(log, b);
    forall e
      ensures Count(log + b, e) == Count(log, e) + (if e == TargetPoseSet then 1 else 0) + (if e == outcome then 1 else 0)
    {
      CountAppend(log, b, e);
      CountPair(TargetPoseSet, outcome, e);
    }
  }

  lemma StepPreservesInv(s: State, o: GoalOutcome, tolerance: real)
    requires Inv(s) && s.stop.None?
    ensures Inv(Step(s, o, tolerance))
  {
    if o.shutdown {
    } else if !o.serverAvailable {
      AppendLone(s.events, FailedToCommunicate);
    } else if s.queue == [] {
      AppendLone(s.events, InsufficientPoses);
    } else if !o.resultInTime {
      TimeoutPreservesInv(s, o, tolerance);
    } else {
      var v := Classify(o.status, s.queue[0].position, o.groundTruth, tolerance);
      if v == GroundTruthUnset {
        UnsetPreservesInv(s, o, tolerance);
      } else {
        ClassifiedPreservesInv(s, o, tolerance, v);
      }
    }
  }

  lemma TimeoutPreservesInv(s: State, o: GoalOutcome, tolerance: real)
    requires Inv(s) && s.stop.None? && SendsGoal(s, o) && !o.resultInTime
    ensures Inv(Step(s, o, tolerance))
  {
    var s' := Step(s, o, tolerance);
    assert s.plan[s.counters.sent..][1..] == s.plan[s.counters.sent + 1..];
    assert s'.events == s.events + [TargetPoseSet, WaypointTimeout, SupervisorFinished];
    AppendTimeout(s.events);
  }

  lemma UnsetPreservesInv(s: State, o: GoalOutcome, tolerance: real)
    requires Inv(s) && s.stop.None? && SendsGoal(s, o) && o.resultInTime
    requires Classify(o.status, s.queue[0].position, o.groundTruth, tolerance) == GroundTruthUnset
    ensures Inv(Step(s, o, tolerance))
  {
    assert s.plan[s.counters.sent..][1..] == s.plan[s.counters.sent + 1..];
    AppendLone(s.events, TargetPoseSet);
  }

  lemma ClassifiedPreservesInv(s: State, o: GoalOutcome, tolerance: real, v: Verdict)
    requires Inv(s) && s.stop.None? && SendsGoal(s, o) && o.resultInTime
    requires v == Classify(o.status, s.queue[0].position, o.groundTruth, tolerance) && v != GroundTruthUnset
    ensures Inv(Step(s, o, tolerance))
  {
    var outcome := if v == Reached then TargetPoseReached else TargetPoseNotReached;
    AppendClassified(s.events, outcome);
    if s.queue[1..] == [] {
      LastClassifiedPreservesInv(s, o, tolerance, v);
    } else {
      assert s.plan[s.counters.sent..][1..] == s.plan[s.counters.sent + 1..];
      assert Step(s, o, tolerance).events == s.events + [TargetPoseSet, outcome];
    }
  }

  lemma LastClassifiedPreservesInv(s: State, o: GoalOutcome, tolerance: real, v: Verdict)
    requires Inv(s) && s.stop.None? && SendsGoal(s, o) && o.resultInTime && s.queue[1..] == []
    requires v == Classify(o.status, s.queue[0].position, o.groundTruth, tolerance) && v != GroundTruthUnset
    ensures Inv(Step(s, o, tolerance))
  {
    var outcome := if v == Reached then TargetPoseReached else TargetPoseNotReached;
    var log := s.events + [TargetPoseSet, outcome];
    AppendClassified(s.events, outcome);
    assert s.plan[s.counters.sent..][1..] == s.plan[s.counters.sent + 1..];
    assert Step(s, o, tolerance).events == log + [RunCompleted];
    AppendLone(log, RunCompleted);
  }

  /** Appending one event that is neither `supervisor_finished` nor an outcome. */
  lemma AppendLone(log: seq<Event>, x: Event)
    requires x != SupervisorFinished && !IsGoalOutcome(x)
    requires OutcomeFollowsSet(log) && !EndsWith(log, TargetPoseSet) && FinishedFollowsCause(log)
    ensures var log' := log + [x];
      && OutcomeFollowsSet(log') && (EndsWith(log', TargetPoseSet) <==> x == TargetPoseSet)
      && FinishedFollowsCause(log')
      && forall e :: Count(log', e) == Count(log, e) + (if e == x then 1 else 0)
  {
    OutcomeFollowsSetAppend(log, [x]);
    AppendKeepsFinishedFollowsCause(log, [x]);
    forall e
      ensures Count(log + [x], e) == Count(log, e) + (if e == x then 1 else 0)
    {
      CountAppend(log, [x], e);
      CountSingle(x, e);
    }
  }

  lemma AppendTimeout(log: seq<Event>)
    requires OutcomeFollowsSet(log) && !EndsWith(log, TargetPoseSet) && FinishedFollowsCause(log)
    ensures var log' := log + [TargetPoseSet, WaypointTimeout, SupervisorFinished];
      && OutcomeFollowsSet(log') && !EndsWith(log', TargetPoseSet) && FinishedFollowsCause(log')
      && forall e :: Count(log', e) == Count(log, e)
           + (if e == TargetPoseSet then 1 else 0)
           + (if e == WaypointTimeout then 1 else 0)
           + (if e == SupervisorFinished then 1 else 0)
  {
    var b := [TargetPoseSet, WaypointTimeout, SupervisorFinished];
    OutcomeFollowsSetAppend(log, b);
    AppendKeepsFinishedFollowsCause(log, b);
    forall e
      ensures Count(log + b, e) == Count(log, e)
           + (if e == TargetPoseSet then 1 else 0)
           + (if e == WaypointTimeout then 1 else 0)
           + (if e == SupervisorFinished then 1 else 0)
    {
      CountAppend(log, b, e);
      assert b[..2] == [TargetPoseSet, WaypointTimeout];
      CountPair(TargetPoseSet, WaypointTimeout, e);
    }
  }

  /** The invariant holds after any number of iterations. */
  lemma {:induction false} DispatchPreservesInv(s: State, outcomes: seq<GoalOutcome>, tolerance: real)
    requires Inv(s)
    ensures Inv(Dispatch(s, outcomes, tolerance))
    decreases |outcomes|
  {
    if s.stop.None? && outcomes != [] {
      StepPreservesInv(s, outcomes[0], tolerance);
      DispatchPreservesInv(Step(s, outcomes[0], tolerance), outcomes[1..], tolerance);
    }
  }

  /**
   * Once the loop has a non-empty queue at its head, the fatal
   * `insufficient_number_of_poses_in_traversal_path` branch is never taken.
   */
  lemma {:induction false} NeverEmptyAtLoopHead(s: State, outcomes: seq<GoalOutcome>, tolerance: real)
    requires s.stop.None? ==> s.queue != []
    ensures Count(Dispatch(s, outcomes, tolerance).events, InsufficientPoses) == Count(s.events, InsufficientPoses)
    ensures Dispatch(s, outcomes, tolerance).stop != Some(EmptyTour) || s.stop == Some(EmptyTour)
    decreases |outcomes|
  {
    if s.stop.None? && outcomes != [] {
      StepKeepsPoseCount(s, outcomes[0], tolerance);
      NeverEmptyAtLoopHead(Step(s, outcomes[0], tolerance), outcomes[1..], tolerance);
    }
  }

  /** One goal taken from a non-empty queue never reports too few poses. */
  lemma StepKeepsPoseCount(s: State, o: GoalOutcome, tolerance: real)
    requires s.stop.None? && s.queue != []
    ensures Count(Step(s, o, tolerance).events, InsufficientPoses) == Count(s.events, InsufficientPoses)
    ensures Step(s, o, tolerance).stop != Some(EmptyTour)
  {
    var s' := Step(s, o, tolerance);
    var b := s'.events[|s.events|..];
    StepAppends(s, o, tolerance);
    assert s'.events == s.events + b;
    CountAppend(s.events, b, InsufficientPoses);
  }

  /** The events one iteration appends, when the queue is not empty at the loop head. */
  lemma StepAppends(s: State, o: GoalOutcome, tolerance: real)
    requires s.stop.None? && s.queue != []
    ensures |s.events| <= |Step(s, o, tolerance).events|
    ensures s.events == Step(s, o, tolerance).events[..|s.events|]
    ensures Count(Step(s, o, tolerance).events[|s.events|..], InsufficientPoses) == 0
  {
    var s' := Step(s, o, tolerance);
    var b := s'.events[|s.events|..];
    assert s'.events == s.events + b;
    if o.shutdown {
      assert b == [];
    } else if !o.serverAvailable {
      assert b == [FailedToCommunicate];
      CountSingle(FailedToCommunicate, InsufficientPoses);
    } else if !o.resultInTime {
      assert b == [TargetPoseSet, WaypointTimeout, SupervisorFinished];
      assert b[..2] == [TargetPoseSet, WaypointTimeout];
      CountPair(TargetPoseSet, WaypointTimeout, InsufficientPoses);
    } else {
      var goal := s.queue[0];
      match Classify(o.status, goal.position, o.groundTruth, tolerance)
      case GroundTruthUnset =>
        assert b == [TargetPoseSet];
        CountSingle(TargetPoseSet, InsufficientPoses);
      case Reached =>
        CountPair(TargetPoseSet, TargetPoseReached, InsufficientPoses);
        if s.queue[1..] == [] {
          assert b == [TargetPoseSet, TargetPoseReached, RunCompleted];
          assert b[..2] == [TargetPoseSet, TargetPoseReached];
        } else {
          assert b == [TargetPoseSet, TargetPoseReached];
        }
      case NotReached =>
        CountPair(TargetPoseSet, TargetPoseNotReached, InsufficientPoses);
        if s.queue[1..] == [] {
          assert b == [TargetPoseSet, TargetPoseNotReached, RunCompleted];
          assert b[..2] == [TargetPoseSet, TargetPoseNotReached];
        } else {
          assert b == [TargetPoseSet, TargetPoseNotReached];
        }
    }
  }

  /** An outcome in which the iteration sends its goal and gets a classifiable result. */
  predicate Nominal(o: GoalOutcome)
  {
    !o.shutdown && o.serverAvailable && o.resultInTime && (o.status == Succeeded ==> o.groundTruth.Some?)
  }

  /**
   * With at least one nominal outcome per queued waypoint, the loop completes:
   * it ends with `run_completed`, every planned goal was sent, and each was
   * counted once as succeeded or failed.
   */
  lemma {:induction false} NominalRunCompletes(s: State, outcomes: seq<GoalOutcome>, tolerance: real)
    requires Inv(s) && s.stop.None? && s.queue != []
    requires |outcomes| >= |s.queue|
    requires forall k :: 0 <= k < |outcomes| ==> Nominal(outcomes[k])
    ensures var s' := Dispatch(s, outcomes, tolerance);
      && s'.stop == Some(Completed)
      && s'.counters.sent == s'.numGoals
      && s'.counters.succeeded + s'.counters.failed == s'.numGoals
      && EndsWith(s'.events, RunCompleted)
    decreases |outcomes|
  {
    var o := outcomes[0];
    var s1 := Step(s, o, tolerance);
    NominalStep(s, o, tolerance);
    if s1.stop.None? {
      NominalRunCompletes(s1, outcomes[1..], tolerance);
    }
  }

  /** How many of `goals` the outcomes paired with them in order classify as reached. */
  function ReachedCount(goals: seq<Waypoint>, outcomes: seq<GoalOutcome>, tolerance: real): (n: nat)
    requires |outcomes| >= |goals|
    ensures n <= |goals|
    decreases |goals|
  {
    if goals == [] then 0
    else
      (if Classify(outcomes[0].status, goals[0].position, outcomes[0].groundTruth, tolerance) == Reached then 1 else 0)
      + ReachedCount(goals[1..], outcomes[1..], tolerance)
  }

  /**
   * Over a nominal run the k-th outcome decides the k-th queued goal: the run
   * counts as succeeded exactly the goals whose own outcome classifies them as
   * reached, and every other goal as failed.
   */
  lemma {:induction false} NominalRunCountsReached(s: State, outcomes: seq<GoalOutcome>, tolerance: real)
    requires s.stop.None? && s.queue != []
    requires |outcomes| >= |s.queue|
    requires forall k :: 0 <= k < |outcomes| ==> Nominal(outcomes[k])
    ensures var s' := Dispatch(s, outcomes, tolerance);
      && s'.counters.succeeded == s.counters.succeeded + ReachedCount(s.queue, outcomes, tolerance)
      && s'.counters.failed == s.counters.failed + |s.queue| - ReachedCount(s.queue, outcomes, tolerance)
    decreases |outcomes|
  {
    var s1 := Step(s, outcomes[0], tolerance);
    NominalStepCounts(s, outcomes[0], tolerance);
    if s1.stop.None? {
      NominalRunCountsReached(s1, outcomes[1..], tolerance);
    }
  }

  /** A nominal goal moves one waypoint off the queue into exactly one of the two counters,
      and the run goes on unless that waypoint was the last. */
  lemma NominalStepCounts(s: State, o: GoalOutcome, tolerance: real)
    requires s.stop.None? && s.queue != [] && Nominal(o)
    ensures var s1 := Step(s, o, tolerance);
      var r := if Classify(o.status, s.queue[0].position, o.groundTruth, tolerance) == Reached then 1 else 0;
      && s1.queue == s.queue[1..]
      && s1.counters.succeeded == s.counters.succeeded + r
      && s1.counters.failed == s.counters.failed + 1 - r
      && (s1.stop.None? || (s1.stop == Some(Completed) && s1.queue == []))
  {
  }

  lemma NominalStep(s: State, o: GoalOutcome, tolerance: real)
    requires Inv(s) && s.stop.None? && s.queue != [] && Nominal(o)
    ensures var s1 := Step(s, o, tolerance);
      && Inv(s1) && s1.counters.sent == s.counters.sent + 1
      && (s1.stop.None? || s1.stop == Some(Completed))
      && (s1.stop == Some(Completed) ==> EndsWith(s1.events, RunCompleted))
  {
    StepPreservesInv(s, o, tolerance);
  }
}

=== FILE: events.dfy ===
/**
 * The run-event ledger: the fixed vocabulary of lifecycle events the supervisor
 * appends to its event log, counting over a ledger, and the invariant that every
 * `supervisor_finished` is written right after the event that caused it.
 */
module Events {
  import opened Wrappers

  datatype Event =
    | RunStart
    | TargetPoseSet
    | TargetPoseReached
    | TargetPoseNotReached
    | WaypointTimeout
    | SupervisorFinished
    | RunCompleted
    | FailedToCommunicate
    | InsufficientPoses
    | InsufficientNodes
    | RunTimeout
    | RosShutdown

  /** The name written into the event column of the ledger. */
  function Name(e: Event): string
  {
    match e
    case RunStart => "run_start"
    case TargetPoseSet => "target_pose_set"
    case TargetPoseReached => "target_pose_reached"
    case TargetPoseNotReached => "target_pose_not_reached"
    case WaypointTimeout => "waypoint_timeout"
    case SupervisorFinished => "supervisor_finished"
    case RunCompleted => "run_completed"
    case FailedToCommunicate => "failed_to_communicate_with_navigation_node"
    case InsufficientPoses => "insufficient_number_of_poses_in_traversal_path"
    case InsufficientNodes => "insufficient_number_of_nodes_in_deleaved_reduced_voronoi_graph"
    case RunTimeout => "run_timeout"
    case RosShutdown => "ros_shutdown"
  }

  /** Reads an event column back into an event, as a post-hoc analysis of the ledger would. */
  function Parse(name: string): Option<Event>
  {
    match |name|
    case 9 => if name == "run_start" then Some(RunStart) else None
    case 11 => if name == "run_timeout" then Some(RunTimeout) else None
    case 12 => if name == "ros_shutdown" then Some(RosShutdown) else None
    case 13 => if name == "run_completed" then Some(RunCompleted) else None
    case 15 => if name == "target_pose_set" then Some(TargetPoseSet) else None
    case 16 => if name == "waypoint_timeout" then Some(WaypointTimeout) else None
    case 19 =>
      if name == "target_pose_reached" then Some(TargetPoseReached)
      else if name == "supervisor_finished" then Some(SupervisorFinished)
      else None
    case 23 => if name == "target_pose_not_reached" then Some(TargetPoseNotReached) else None
    case 42 => if name == "failed_to_communicate_with_navigation_node" then Some(FailedToCommunicate) else None
    case 46 => if name == "insufficient_number_of_poses_in_traversal_path" then Some(InsufficientPoses) else None
    case 62 =>
      if name == "insufficient_number_of_nodes_in_deleaved_reduced_voronoi_graph" then Some(InsufficientNodes)
      else None
    case _ => None
  }

  /** Every event name reads back as the event that wrote it, so no two events share a name. */
  lemma ParseName(e: Event)
    ensures Parse(Name(e)) == Some(e)
  {
    match e
    case RunStart =>
    case TargetPoseSet =>
    case TargetPoseReached =>
    case TargetPoseNotReached =>
    case WaypointTimeout =>
    case SupervisorFinished =>
    case RunCompleted =>
    case FailedToCommunicate =>
    case InsufficientPoses =>
    case InsufficientNodes =>
    case RunTimeout =>
    case RosShutdown =>
  }

  /** Number of occurrences of `e` in a ledger. */
  function Count(log: seq<Event>, e: Event): nat
  {
    if log == [] then 0
    else Count(log[..|log| - 1], e) + (if log[|log| - 1] == e then 1 else 0)
  }

  lemma {:induction false} CountAppend(a: seq<Event>, b: seq<Event>, e: Event)
    ensures Count(a + b, e) == Count(a, e) + Count(b, e)
    decreases |b|
  {
    if b == [] {
      assert a + b == a;
    } else {
      var b' := b[..|b| - 1];
      assert (a + b)[..|a + b| - 1] == a + b';
      CountAppend(a, b', e);
    }
  }

  /** Events that end a run and are therefore followed by `supervisor_finished`. */
  predicate IsFinishCause(e: Event)
  {
    e == WaypointTimeout || e == RunTimeout || e == RosShutdown
  }

  /** Every `supervisor_finished` in the ledger directly follows the event that caused it. */
  ghost predicate FinishedFollowsCause(log: seq<Event>)
  {
    forall k :: 0 <= k < |log| && log[k] == SupervisorFinished ==> 0 < k && IsFinishCause(log[k - 1])
  }

  /** The two events written together when the run ends for `cause`. */
  function FinishPair(cause: Event): (pair: seq<Event>)
    requires IsFinishCause(cause)
    ensures FinishedFollowsCause(pair)
    ensures Count(pair, SupervisorFinished) == 1
  {
    var pair := [cause, SupervisorFinished];
    assert pair[..1] == [cause] && [cause][..0] == [];
    assert Count([cause], SupervisorFinished) == 0;
    pair
  }

  /** Appending a block that does not begin with `supervisor_finished` keeps the ledger invariant. */
  lemma AppendKeepsFinishedFollowsCause(a: seq<Event>, b: seq<Event>)
    requires FinishedFollowsCause(b)
    requires b == [] || b[0] != SupervisorFinished
    ensures FinishedFollowsCause(a) ==> FinishedFollowsCause(a + b)
  {
    if !FinishedFollowsCause(a) {
      return;
    }
    var ab := a + b;
    forall k | 0 <= k < |ab| && ab[k] == SupervisorFinished
      ensures 0 < k && IsFinishCause(ab[k - 1])
    {
      if k >= |a| {
        assert b[k - |a|] == SupervisorFinished;
        assert k - |a| > 0;
        assert ab[k - 1] == b[k - |a| - 1];
      } else {
        assert a[k] == SupervisorFinished;
      }
    }
  }

  /** `run_timeout_callback`: the watchdog fired; the run is over. */
  function OnRunTimeout(log: seq<Event>): (log': seq<Event>)
    ensures FinishedFollowsCause(log) ==> FinishedFollowsCause(log')
    ensures Count(log', SupervisorFinished) == Count(log, SupervisorFinished) + 1
    ensures log' == log + FinishPair(RunTimeout)
  {
    AppendKeepsFinishedFollowsCause(log, FinishPair(RunTimeout));
    CountAppend(log, FinishPair(RunTimeout), SupervisorFinished);
    log + FinishPair(RunTimeout)
  }

  /** `ros_shutdown_callback`: the node was interrupted; the run is over. */
  function OnRosShutdown(log: seq<Event>): (log': seq<Event>)
    ensures FinishedFollowsCause(log) ==> FinishedFollowsCause(log')
    ensures Count(log', SupervisorFinished) == Count(log, SupervisorFinished) + 1
    ensures log' == log + FinishPair(RosShutdown)
  {
    AppendKeepsFinishedFollowsCause(log, FinishPair(RosShutdown));
    CountAppend(log, FinishPair(RosShutdown), SupervisorFinished);
    log + FinishPair(RosShutdown)
  }
}

=== FILE: geometry.dfy ===
/** Planar positions and the goal-tolerance test of the dispatcher. */
module Geometry {

  datatype Point = Point(x: real, y: real)

  /** Square of the Euclidean distance between two positions. */
  function SquaredDistance(a: Point, b: Point): (d: real)
    ensures d >= 0.0
    ensures a == b ==> d == 0.0
  {
    var dx := a.x - b.x;
    var dy := a.y - b.y;
    dx * dx + dy * dy
  }

  /**
   * The source compares the Euclidean distance with the tolerance. Without a square root the same
   * test reads: the tolerance is positive and the squared distance is below its square.
   */
  predicate WithinTolerance(goal: Point, actual: Point, tolerance: real)
  {
    tolerance > 0.0 && SquaredDistance(goal, actual) < tolerance * tolerance
  }

  /** The squared comparison agrees with the source's comparison of the distance itself. */
  lemma WithinToleranceMatchesDistance(goal: Point, actual: Point, tolerance: real, distance: real)
    requires distance >= 0.0 && distance * distance == SquaredDistance(goal, actual)
    ensures WithinTolerance(goal, actual, tolerance) <==> distance < tolerance
  {
    if distance < tolerance {
      SquareStrictlyMonotone(distance, tolerance);
    } else if tolerance > 0.0 {
      SquareMonotone(tolerance, distance);
    }
  }

  lemma SquareStrictlyMonotone(a: real, b: real)
    requires 0.0 <= a < b
    ensures a * a < b * b
  {
    var aa, ab, bb := a * a, a * b, b * b;
    assert aa <= ab by { assert a * (b - a) >= 0.0; }
    assert ab < bb by { assert b * (b - a) > 0.0; }
  }

  lemma SquareMonotone(a: real, b: real)
    requires 0.0 <= a <= b
    ensures a * a <= b * b
  {
    var aa, ab, bb := a * a, a * b, b * b;
    assert aa <= ab by { assert a * (b - a) >= 0.0; }
    assert ab <= bb by { assert b * (b - a) >= 0.0; }
  }
}

=== FILE: planner.dfy ===
/**
 * The skeleton path planner of `start_run`: the shortest-path cost table, pruning
 * of graph components with fewer than two vertices, and the greedy
 * nearest-remaining-vertex traversal of the start vertex's component.
 *
 * Dijkstra's all-pairs search and the connected-components computation are
 * inputs: `shortest[i]` lists every vertex reachable from `i` (including `i`
 * itself) with its path cost, in the iteration order of the search's result.
 */
module Planner {
  import opened Wrappers
  import opened Geometry

  type Node = int

  /** One entry of a cost-table row: a destination vertex and the path cost to it. */
  datatype CostEntry = CostEntry(node: Node, cost: real)

  /** The pruned-or-not skeleton graph: vertex positions and connected components. */
  datatype Graph = Graph(vertex: map<Node, Point>, components: seq<set<Node>>)

  datatype PlanError =
    | InsufficientNodes  // fewer than two vertices survive pruning
    | NoCandidates       // no remaining vertex appears in the current vertex's cost row

  /** The components partition the vertex set, as the components of a graph do. */
  ghost predicate Valid(g: Graph)
  {
    && (forall i :: 0 <= i < |g.components| ==> g.components[i] != {} && g.components[i] <= g.vertex.Keys)
    && Disjoint(g.components)
    && (forall v :: v in g.vertex ==> exists i :: 0 <= i < |g.components| && v in g.components[i])
  }

  ghost predicate Disjoint(comps: seq<set<Node>>)
  {
    forall i, j :: 0 <= i < j < |comps| ==> comps[i] !! comps[j]
  }

  function Elems<T>(s: seq<T>): set<T>
  {
    set x | x in s
  }

  predicate Distinct<T(==)>(s: seq<T>)
  {
    forall i, j :: 0 <= i < j < |s| ==> s[i] != s[j]
  }

  function NodesOf(entries: seq<CostEntry>): set<Node>
  {
    set e | e in entries :: e.node
  }

  // ---------------------------------------------------------------------------
  // Cost table

  /** A cost-table row without the entry for its own source vertex. */
  function WithoutSelf(entries: seq<CostEntry>, i: Node): (r: seq<CostEntry>)
    ensures forall e :: e in r <==> e in entries && e.node != i
    ensures |r| <= |entries|
  {
    if entries == [] then []
    else (if entries[0].node != i then [entries[0]] else []) + WithoutSelf(entries[1..], i)
  }

  /** Removing the self entry works piece by piece, so the kept entries stay in their order. */
  lemma {:induction false} WithoutSelfAppend(a: seq<CostEntry>, b: seq<CostEntry>, i: Node)
    ensures WithoutSelf(a + b, i) == WithoutSelf(a, i) + WithoutSelf(b, i)
    decreases |a|
  {
    if a == [] {
      assert a + b == b;
    } else {
      assert (a + b)[0] == a[0] && (a + b)[1..] == a[1..] + b;
      WithoutSelfAppend(a[1..], b, i);
    }
  }

  /** A row that never names its source vertex is kept whole, in its order. */
  lemma {:induction false} WithoutSelfKeepsRow(entries: seq<CostEntry>, i: Node)
    requires i !in NodesOf(entries)
    ensures WithoutSelf(entries, i) == entries
    decreases |entries|
  {
    if entries != [] {
      assert entries[0] in entries;
      assert NodesOf(entries[1..]) <= NodesOf(entries) by {
        forall e | e in entries[1..] ensures e in entries {
        }
      }
      WithoutSelfKeepsRow(entries[1..], i);
    }
  }

  /**
   * Dijkstra's row for `i` names `i` once; the row built from it is the same
   * row with that one entry cut out, every other entry in its original order.
   */
  lemma WithoutSelfSplice(a: seq<CostEntry>, b: seq<CostEntry>, i: Node, c: real)
    requires i !in NodesOf(a + b)
    ensures WithoutSelf(a + [CostEntry(i, c)] + b, i) == a + b
  {
    NodesOfAppend(a, b);
    var self := [CostEntry(i, c)];
    assert WithoutSelf(self, i) == [] by {
      assert self[1..] == [];
    }
    WithoutSelfAppend(a + self, b, i);
    WithoutSelfAppend(a, self, i);
    WithoutSelfKeepsRow(a, i);
    WithoutSelfKeepsRow(b, i);
    assert WithoutSelf(a + self, i) == a;
  }

  lemma NodesOfAppend(a: seq<CostEntry>, b: seq<CostEntry>)
    ensures NodesOf(a + b) == NodesOf(a) + NodesOf(b)
  {
    forall n | n in NodesOf(a) + NodesOf(b) ensures n in NodesOf(a + b) {
      var e :| (e in a || e in b) && e.node == n;
      assert e in a + b;
    }
  }

  /** The `costs` table: each reachable pair `i != j` with its shortest-path cost. */
  function BuildCosts(shortest: map<Node, seq<CostEntry>>): (costs: map<Node, seq<CostEntry>>)
    ensures costs.Keys == shortest.Keys
    ensures forall i, e :: i in costs ==> (e in costs[i] <==> e in shortest[i] && e.node != i)
  {
    map i | i in shortest :: WithoutSelf(shortest[i], i)
  }

  /**
   * The built row of `i` is Dijkstra's row with the self entry cut out and
   * every other entry in Dijkstra's order, the order in which the greedy walk
   * breaks cost ties.
   */
  lemma BuildCostsKeepsOrder(shortest: map<Node, seq<CostEntry>>, i: Node, a: seq<CostEntry>, b: seq<CostEntry>, c: real)
    requires i in shortest && shortest[i] == a + [CostEntry(i, c)] + b
    requires i !in NodesOf(a + b)
    ensures BuildCosts(shortest)[i] == a + b
  {
    WithoutSelfSplice(a, b, i, c);
  }

  /** The row `costs[u]` of the source's `defaultdict`: empty when `u` has none. */
  function Entries(costs: map<Node, seq<CostEntry>>, u: Node): seq<CostEntry>
  {
    if u in costs then costs[u] else []
  }

  /** A built table never lists a vertex as its own neighbour. */
  lemma BuildCostsHasNoSelfEntries(shortest: map<Node, seq<CostEntry>>, u: Node)
    ensures u !in NodesOf(Entries(BuildCosts(shortest), u))
  {
  }

  /** No vertex of `component` lists itself in its own cost row. */
  ghost predicate NoSelfEntries(costs: map<Node, seq<CostEntry>>, component: set<Node>)
  {
    forall u :: u in component ==> u !in NodesOf(Entries(costs, u))
  }

  /** Dijkstra reached every vertex of `component` from every vertex of it. */
  ghost predicate ReachesWholeComponent(shortest: map<Node, seq<CostEntry>>, component: set<Node>)
  {
    forall u :: u in component ==> u in shortest && component <= NodesOf(shortest[u])
  }

  /** Every vertex of `component` lists every other vertex of it in its cost row. */
  ghost predicate CompleteOn(costs: map<Node, seq<CostEntry>>, component: set<Node>)
  {
    forall u :: u in component ==> component - {u} <= NodesOf(Entries(costs, u))
  }

  lemma BuildCostsComplete(shortest: map<Node, seq<CostEntry>>, component: set<Node>)
    requires ReachesWholeComponent(shortest, component)
    ensures CompleteOn(BuildCosts(shortest), component)
  {
    var costs := BuildCosts(shortest);
    forall u, v | u in component && v in component - {u}
      ensures v in NodesOf(Entries(costs, u))
    {
      assert v in NodesOf(shortest[u]);
      var e :| e in shortest[u] && e.node == v;
      assert e in costs[u];
    }
  }

  // ---------------------------------------------------------------------------
  // Pruning

  /** The component of `comps` holding `v` (empty when none does). */
  function ComponentOf(comps: seq<set<Node>>, v: Node): set<Node>
  {
    if comps == [] then {}
    else if v in comps[0] then comps[0]
    else ComponentOf(comps[1..], v)
  }

  /** Vertices of the components with fewer than two vertices. */
  function SmallNodes(comps: seq<set<Node>>): set<Node>
  {
    if comps == [] then {}
    else (if |comps[0]| < 2 then comps[0] else {}) + SmallNodes(comps[1..])
  }

  /** The components with at least two vertices, in order. */
  function LargeComponents(comps: seq<set<Node>>): (large: seq<set<Node>>)
    ensures forall c :: c in large <==> c in comps && |c| >= 2
  {
    if comps == [] then []
    else (if |comps[0]| >= 2 then [comps[0]] else []) + LargeComponents(comps[1..])
  }

  /** The graph after `remove_nodes_from` of every too-small component. */
  function Prune(g: Graph): Graph
  {
    var small := SmallNodes(g.components);
    Graph(map v | v in g.vertex && v !in small :: g.vertex[v], LargeComponents(g.components))
  }

  lemma {:induction false} ComponentOfFound(comps: seq<set<Node>>, v: Node)
    ensures v in ComponentOf(comps, v) <==> exists i :: 0 <= i < |comps| && v in comps[i]
    ensures ComponentOf(comps, v) == {} || ComponentOf(comps, v) in comps
  {
    if comps != [] && v !in comps[0] {
      ComponentOfFound(comps[1..], v);
      if exists i :: 0 <= i < |comps| && v in comps[i] {
        var i :| 0 <= i < |comps| && v in comps[i];
        assert comps[1..][i - 1] == comps[i];
      }
    }
  }

  lemma {:induction false} SmallNodesExact(comps: seq<set<Node>>, v: Node)
    requires Disjoint(comps)
    ensures v in SmallNodes(comps) <==> v in ComponentOf(comps, v) && |ComponentOf(comps, v)| < 2
  {
    if comps != [] {
      assert Disjoint(comps[1..]);
      SmallNodesExact(comps[1..], v);
      if v in comps[0] {
        ComponentOfFound(comps[1..], v);
        if v in ComponentOf(comps[1..], v) {
          var i :| 0 <= i < |comps[1..]| && v in comps[1..][i];
          assert comps[0] !! comps[i + 1];
        }
      }
    }
  }

  lemma {:induction false} LargeComponentOf(comps: seq<set<Node>>, v: Node)
    requires |ComponentOf(comps, v)| >= 2
    ensures ComponentOf(LargeComponents(comps), v) == ComponentOf(comps, v)
  {
    if v !in comps[0] {
      LargeComponentOf(comps[1..], v);
      if |comps[0]| >= 2 {
        assert LargeComponents(comps)[1..] == LargeComponents(comps[1..]);
      } else {
        assert LargeComponents(comps) == LargeComponents(comps[1..]);
      }
    }
  }

  /**
   * Pruning removes exactly the vertices whose component has fewer than two
   * vertices, and leaves every surviving vertex in the component it had.
   */
  lemma PruneExact(g: Graph, v: Node)
    requires Valid(g)
    ensures v in Prune(g).vertex <==> v in g.vertex && |ComponentOf(g.components, v)| >= 2
    ensures v in Prune(g).vertex ==>
      && ComponentOf(Prune(g).components, v) == ComponentOf(g.components, v)
      && v in ComponentOf(g.components, v)
  {
    SmallNodesExact(g.components, v);
    ComponentOfFound(g.components, v);
    if v in Prune(g).vertex {
      LargeComponentOf(g.components, v);
    }
  }

  /** Whatever component a vertex is asked about, its vertices belong to the graph. */
  lemma ComponentInGraph(g: Graph, v: Node)
    requires Valid(g)
    ensures ComponentOf(Prune(g).components, v) <= g.vertex.Keys
  {
    ComponentOfFound(Prune(g).components, v);
    var c := ComponentOf(Prune(g).components, v);
    if c != {} {
      assert c in g.components;
    }
  }

  // ---------------------------------------------------------------------------
  // Greedy traversal

  /** The entries of a cost row whose vertex is still waiting to be visited, in row order. */
  function Candidates(entries: seq<CostEntry>, remaining: set<Node>): (c: seq<CostEntry>)
    ensures forall k :: 0 <= k < |c| ==> c[k].node in remaining && c[k] in entries
    ensures forall e :: e in entries && e.node in remaining ==> e in c
  {
    if entries == [] then []
    else (if entries[0].node in remaining then [entries[0]] else []) + Candidates(entries[1..], remaining)
  }

  function CostsOf(c: seq<CostEntry>): (costs: seq<real>)
    ensures |costs| == |c|
    ensures forall k :: 0 <= k < |c| ==> costs[k] == c[k].cost
  {
    seq(|c|, k requires 0 <= k < |c| => c[k].cost)
  }

  /** `np.argmin`: the index of the first occurrence of the minimum. */
  function ArgMin(xs: seq<real>): (k: nat)
    requires xs != []
    ensures k < |xs|
    ensures forall j :: 0 <= j < |xs| ==> xs[k] <= xs[j]
    ensures forall j :: 0 <= j < k ==> xs[k] < xs[j]
  {
    if |xs| == 1 then 0
    else
      var k' := ArgMin(xs[1..]);
      if xs[0] <= xs[1 + k'] then 0 else 1 + k'
  }

  /**
   * The greedy loop of `start_run`: from `current`, move to the remaining vertex
   * whose cost row entry is cheapest (the first such entry on ties), remove it,
   * and continue from it until nothing remains.
   */
  function Greedy(costs: map<Node, seq<CostEntry>>, current: Node, remaining: set<Node>)
    : (r: Result<seq<Node>, PlanError>)
    ensures r.Ok? ==> |r.value| == |remaining| && Elems(r.value) == remaining && Distinct(r.value)
    ensures r.Err? ==> r.error == NoCandidates
    decreases |remaining|
  {
    if remaining == {} then Ok([])
    else
      var candidates := Candidates(Entries(costs, current), remaining);
      if candidates == [] then Err(NoCandidates)
      else
        var next := candidates[ArgMin(CostsOf(candidates))].node;
        match Greedy(costs, next, remaining - {next})
        case Ok(rest) =>
          assert Elems([next] + rest) == {next} + Elems(rest);
          Ok([next] + rest)
        case Err(e) => Err(e)
  }

  /**
   * Entry `i` of a cost row is the greedy choice among `remaining`: its vertex
   * remains, no remaining entry is cheaper, and every remaining entry before it
   * is strictly dearer.
   */
  ghost predicate IsFirstNearest(entries: seq<CostEntry>, remaining: set<Node>, i: int)
  {
    && 0 <= i < |entries|
    && entries[i].node in remaining
    && (forall j :: 0 <= j < |entries| && entries[j].node in remaining ==> entries[i].cost <= entries[j].cost)
    && (forall j :: 0 <= j < i && entries[j].node in remaining ==> entries[i].cost < entries[j].cost)
  }

  ghost predicate NearestRemaining(entries: seq<CostEntry>, remaining: set<Node>, v: Node)
  {
    exists i :: IsFirstNearest(entries, remaining, i) && entries[i].node == v
  }

  lemma FirstNearestUnique(entries: seq<CostEntry>, remaining: set<Node>, i: int, j: int)
    requires IsFirstNearest(entries, remaining, i) && IsFirstNearest(entries, remaining, j)
    ensures i == j
  {}

  lemma FirstNearestSkip(entries: seq<CostEntry>, remaining: set<Node>, i: int)
    requires entries != [] && entries[0].node !in remaining
    requires IsFirstNearest(entries[1..], remaining, i)
    ensures IsFirstNearest(entries, remaining, i + 1)
  {
    var rest := entries[1..];
    forall j | 0 <= j < |entries| && entries[j].node in remaining
      ensures entries[i + 1].cost <= entries[j].cost
    {
      assert entries[j] == rest[j - 1];
    }
    forall j | 0 <= j < i + 1 && entries[j].node in remaining
      ensures entries[i + 1].cost < entries[j].cost
    {
      assert entries[j] == rest[j - 1];
    }
  }

  lemma FirstNearestAfterHead(entries: seq<CostEntry>, remaining: set<Node>, i: int)
    requires entries != [] && entries[0].node in remaining
    requires IsFirstNearest(entries[1..], remaining, i)
    requires entries[1..][i].cost < entries[0].cost
    ensures IsFirstNearest(entries, remaining, i + 1)
  {
    var rest := entries[1..];
    forall j | 0 <= j < |entries| && entries[j].node in remaining
      ensures entries[i + 1].cost <= entries[j].cost
    {
      if j > 0 {
        assert entries[j] == rest[j - 1];
      }
    }
    forall j | 0 <= j < i + 1 && entries[j].node in remaining
      ensures entries[i + 1].cost < entries[j].cost
    {
      if j > 0 {
        assert entries[j] == rest[j - 1];
      }
    }
  }

  lemma FirstNearestHead(entries: seq<CostEntry>, remaining: set<Node>)
    requires entries != [] && entries[0].node in remaining
    requires forall e :: e in Candidates(entries[1..], remaining) ==> entries[0].cost <= e.cost
    ensures IsFirstNearest(entries, remaining, 0)
  {
    var rest := entries[1..];
    forall j | 0 <= j < |entries| && entries[j].node in remaining
      ensures entries[0].cost <= entries[j].cost
    {
      if j > 0 {
        assert entries[j] == rest[j - 1];
        assert rest[j - 1] in Candidates(rest, remaining);
      }
    }
  }

  /** Filtering the row and then taking the first minimum picks the row's first nearest entry. */
  lemma {:induction false} SelectsFirstNearest(entries: seq<CostEntry>, remaining: set<Node>) returns (i: nat)
    requires Candidates(entries, remaining) != []
    ensures IsFirstNearest(entries, remaining, i)
    ensures entries[i] == Candidates(entries, remaining)[ArgMin(CostsOf(Candidates(entries, remaining)))]
    decreases |entries|, 1
  {
    var rest := entries[1..];
    if entries[0].node !in remaining {
      i := SelectsSkippingHead(entries, remaining);
    } else if Candidates(rest, remaining) == [] {
      i := SelectsLoneHead(entries, remaining);
    } else {
      i := SelectsAmongMany(entries, remaining);
    }
  }

  lemma {:induction false} SelectsSkippingHead(entries: seq<CostEntry>, remaining: set<Node>) returns (i: nat)
    requires Candidates(entries, remaining) != []
    requires entries[0].node !in remaining
    ensures IsFirstNearest(entries, remaining, i)
    ensures entries[i] == Candidates(entries, remaining)[ArgMin(CostsOf(Candidates(entries, remaining)))]
    decreases |entries|, 0
  {
    var rest := entries[1..];
    assert Candidates(entries, remaining) == Candidates(rest, remaining);
    var i' := SelectsFirstNearest(rest, remaining);
    FirstNearestSkip(entries, remaining, i');
    i := i' + 1;
  }

  lemma SelectsLoneHead(entries: seq<CostEntry>, remaining: set<Node>) returns (i: nat)
    requires entries != [] && entries[0].node in remaining
    requires Candidates(entries[1..], remaining) == []
    ensures IsFirstNearest(entries, remaining, i)
    ensures entries[i] == Candidates(entries, remaining)[ArgMin(CostsOf(Candidates(entries, remaining)))]
  {
    assert Candidates(entries, remaining) == [entries[0]];
    FirstNearestHead(entries, remaining);
    i := 0;
  }

  lemma {:induction false} SelectsAmongMany(entries: seq<CostEntry>, remaining: set<Node>) returns (i: nat)
    requires entries != [] && entries[0].node in remaining
    requires Candidates(entries[1..], remaining) != []
    ensures IsFirstNearest(entries, remaining, i)
    ensures entries[i] == Candidates(entries, remaining)[ArgMin(CostsOf(Candidates(entries, remaining)))]
    decreases |entries|, 0
  {
    var rest := entries[1..];
    var c' := Candidates(rest, remaining);
    var k' := ArgMin(CostsOf(c'));
    ArgMinOfCandidatesCons(entries, remaining);
    if entries[0].cost <= c'[k'].cost {
      BelowArgMinIsBelowAll(c', entries[0].cost);
      FirstNearestHead(entries, remaining);
      i := 0;
    } else {
      var i' := SelectsFirstNearest(rest, remaining);
      FirstNearestAfterHead(entries, remaining, i');
      i := i' + 1;
    }
  }

  /** How the first minimum of the candidates relates to that of the candidates after the head. */
  lemma ArgMinOfCandidatesCons(entries: seq<CostEntry>, remaining: set<Node>)
    requires entries != [] && entries[0].node in remaining
    requires Candidates(entries[1..], remaining) != []
    ensures var c, c' := Candidates(entries, remaining), Candidates(entries[1..], remaining);
      var k' := ArgMin(CostsOf(c'));
      && c == [entries[0]] + c'
      && ArgMin(CostsOf(c)) == (if entries[0].cost <= c'[k'].cost then 0 else 1 + k')
  {
    var c' := Candidates(entries[1..], remaining);
    CandidatesCons(entries, remaining);
    CostsOfCons(entries[0], c');
    ArgMinCons(entries[0].cost, CostsOf(c'));
  }

  lemma CandidatesCons(entries: seq<CostEntry>, remaining: set<Node>)
    requires entries != [] && entries[0].node in remaining
    ensures Candidates(entries, remaining) == [entries[0]] + Candidates(entries[1..], remaining)
  {
  }

  lemma CostsOfCons(e: CostEntry, c: seq<CostEntry>)
    ensures CostsOf([e] + c) == [e.cost] + CostsOf(c)
  {
  }

  lemma ArgMinCons(x: real, ys: seq<real>)
    requires ys != []
    ensures ArgMin([x] + ys) == if x <= ys[ArgMin(ys)] then 0 else 1 + ArgMin(ys)
  {
    assert ([x] + ys)[1..] == ys;
  }

  lemma BelowArgMinIsBelowAll(c: seq<CostEntry>, x: real)
    requires c != [] && x <= c[ArgMin(CostsOf(c))].cost
    ensures forall e :: e in c ==> x <= e.cost
  {
    var xs := CostsOf(c);
    forall e | e in c
      ensures x <= e.cost
    {
      var m :| 0 <= m < |c| && c[m] == e;
      assert xs[ArgMin(xs)] <= xs[m];
    }
  }

  /** The vertex the greedy loop visits before step `k` of tour `t` started at `start`. */
  function Before(start: Node, t: seq<Node>, k: nat): Node
    requires k <= |t|
  {
    if k == 0 then start else t[k - 1]
  }

  /**
   * Reference definition of the greedy tour, stated step by step: it has one
   * step per vertex, and step `k` goes to the first nearest vertex among those
   * not yet visited, seen from the previous vertex (from `start` for step 0).
   */
  ghost predicate IsGreedyTour(costs: map<Node, seq<CostEntry>>, start: Node, remaining: set<Node>, t: seq<Node>)
  {
    && |t| == |remaining|
    && forall k :: 0 <= k < |t| ==>
         NearestRemaining(Entries(costs, Before(start, t, k)), remaining - Elems(t[..k]), t[k])
  }

  lemma IsGreedyTourCons(costs: map<Node, seq<CostEntry>>, start: Node, remaining: set<Node>, n: Node, rest: seq<Node>)
    requires n in remaining
    ensures IsGreedyTour(costs, start, remaining, [n] + rest) <==>
      NearestRemaining(Entries(costs, start), remaining, n) && IsGreedyTour(costs, n, remaining - {n}, rest)
  {
    var t := [n] + rest;
    assert t[..0] == [];
    assert Elems(t[..0]) == {};
    assert remaining - Elems(t[..0]) == remaining;
    forall k | 1 <= k < |t|
      ensures Before(start, t, k) == Before(n, rest, k - 1)
      ensures remaining - Elems(t[..k]) == (remaining - {n}) - Elems(rest[..k - 1])
      ensures t[k] == rest[k - 1]
    {
      assert t[..k] == [n] + rest[..k - 1];
      assert Elems(t[..k]) == {n} + Elems(rest[..k - 1]);
    }
    if IsGreedyTour(costs, n, remaining - {n}, rest) && NearestRemaining(Entries(costs, start), remaining, n) {
      forall k | 0 <= k < |t|
        ensures NearestRemaining(Entries(costs, Before(start, t, k)), remaining - Elems(t[..k]), t[k])
      {
        if k > 0 {
          assert NearestRemaining(Entries(costs, Before(n, rest, k - 1)), (remaining - {n}) - Elems(rest[..k - 1]), rest[k - 1]);
        }
      }
    }
    if IsGreedyTour(costs, start, remaining, t) {
      assert NearestRemaining(Entries(costs, Before(start, t, 0)), remaining - Elems(t[..0]), t[0]);
      forall k | 0 <= k < |rest|
        ensures NearestRemaining(Entries(costs, Before(n, rest, k)), (remaining - {n}) - Elems(rest[..k]), rest[k])
      {
        assert NearestRemaining(Entries(costs, Before(start, t, k + 1)), remaining - Elems(t[..k + 1]), t[k + 1]);
      }
    }
  }

  /** The greedy loop produces a tour exactly when the tour meets the reference definition. */
  lemma GreedyMatchesReference(costs: map<Node, seq<CostEntry>>, current: Node, remaining: set<Node>, t: seq<Node>)
    ensures Greedy(costs, current, remaining) == Ok(t) <==> IsGreedyTour(costs, current, remaining, t)
  {
    if Greedy(costs, current, remaining) == Ok(t) {
      GreedyIsReference(costs, current, remaining, t);
    }
    if IsGreedyTour(costs, current, remaining, t) {
      ReferenceIsGreedy(costs, current, remaining, t);
    }
  }

  lemma {:induction false} GreedyIsReference(costs: map<Node, seq<CostEntry>>, current: Node, remaining: set<Node>, t: seq<Node>)
    requires Greedy(costs, current, remaining) == Ok(t)
    ensures IsGreedyTour(costs, current, remaining, t)
    decreases |remaining|
  {
    if remaining == {} {
      return;
    }
    var entries := Entries(costs, current);
    var candidates := Candidates(entries, remaining);
    var i := SelectsFirstNearest(entries, remaining);
    var next := candidates[ArgMin(CostsOf(candidates))].node;
    assert NearestRemaining(entries, remaining, next);
    var rest := t[1..];
    assert t == [next] + rest;
    GreedyIsReference(costs, next, remaining - {next}, rest);
    IsGreedyTourCons(costs, current, remaining, next, rest);
  }

  lemma {:induction false} ReferenceIsGreedy(costs: map<Node, seq<CostEntry>>, current: Node, remaining: set<Node>, t: seq<Node>)
    requires IsGreedyTour(costs, current, remaining, t)
    ensures Greedy(costs, current, remaining) == Ok(t)
    decreases |remaining|
  {
    if remaining == {} {
      return;
    }
    var entries := Entries(costs, current);
    var n, rest := t[0], t[1..];
    assert t == [n] + rest;
    assert t[..0] == [] && Elems(t[..0]) == {};
    assert NearestRemaining(entries, remaining - Elems(t[..0]), n);
    var i :| IsFirstNearest(entries, remaining, i) && entries[i].node == n;
    IsGreedyTourCons(costs, current, remaining, n, rest);
    assert entries[i] in Candidates(entries, remaining);
    var i' := SelectsFirstNearest(entries, remaining);
    FirstNearestUnique(entries, remaining, i, i');
    ReferenceIsGreedy(costs, n, remaining - {n}, rest);
  }

  /**
   * With a cost table complete on the component, the greedy loop never runs out
   * of candidates: it visits every remaining vertex once, and when it starts
   * inside the set it does not begin with its own start vertex.
   */
  lemma {:induction false} GreedyCovers(
    costs: map<Node, seq<CostEntry>>, component: set<Node>, current: Node, remaining: set<Node>)
    requires CompleteOn(costs, component)
    requires current in component && remaining <= component
    requires current in remaining ==> |remaining| >= 2
    requires NoSelfEntries(costs, component)
    ensures Greedy(costs, current, remaining).Ok?
    ensures remaining != {} ==> Greedy(costs, current, remaining).value[0] != current
    decreases |remaining|
  {
    if remaining == {} {
      return;
    }
    var entries := Entries(costs, current);
    var others := remaining - {current};
    if current in remaining {
      assert |others| == |remaining| - 1;
    } else {
      assert others == remaining;
    }
    CandidatesNonEmpty(entries, remaining, others);
    var candidates := Candidates(entries, remaining);
    var chosen := candidates[ArgMin(CostsOf(candidates))];
    var next := chosen.node;
    assert chosen in entries;
    assert next in NodesOf(entries);
    GreedyCovers(costs, component, next, remaining - {next});
  }

  /** A row that names some remaining vertices yields candidates. */
  lemma CandidatesNonEmpty(entries: seq<CostEntry>, remaining: set<Node>, named: set<Node>)
    requires named <= NodesOf(entries) && named <= remaining
    ensures Candidates(entries, remaining) == [] ==> named == {}
  {
  }

  // ---------------------------------------------------------------------------
  // Planning as a whole

  /** The component the traversal covers: that of `start` in the pruned graph. */
  function TourComponent(g: Graph, start: Node): set<Node>
  {
    ComponentOf(Prune(g).components, start)
  }

  /**
   * Lines 166-195 of `start_run`: build the cost table, prune, fail when fewer
   * than two vertices remain, and run the greedy loop from `start` (the
   * source's `random.choice` over the pruned vertices) over its component.
   */
  function PlanTour(g: Graph, shortest: map<Node, seq<CostEntry>>, start: Node)
    : (r: Result<seq<Node>, PlanError>)
    requires |Prune(g).vertex| >= 2 ==> start in Prune(g).vertex
    ensures r == Err(InsufficientNodes) <==> |Prune(g).vertex| < 2
    ensures r.Ok? ==> Elems(r.value) == TourComponent(g, start) && Distinct(r.value)
  {
    var costs := BuildCosts(shortest);
    var pruned := Prune(g);
    if |pruned.vertex| < 2 then Err(InsufficientNodes)
    else Greedy(costs, start, ComponentOf(pruned.components, start))
  }

  /**
   * When Dijkstra reached the whole component of the start vertex, planning
   * succeeds and the tour visits every vertex of that component exactly once:
   * the loop ran once per vertex, the start vertex is in the tour, and it is
   * never the first element.
   */
  lemma PlanCoversStartComponent(g: Graph, shortest: map<Node, seq<CostEntry>>, start: Node)
    requires Valid(g)
    requires |Prune(g).vertex| >= 2 && start in Prune(g).vertex
    requires ReachesWholeComponent(shortest, ComponentOf(g.components, start))
    ensures PlanTour(g, shortest, start).Ok?
    ensures var t, c := PlanTour(g, shortest, start).value, ComponentOf(g.components, start);
      && |c| >= 2
      && |t| == |c| && Elems(t) == c && Distinct(t)
      && start in t && t[0] != start
  {
    var costs := BuildCosts(shortest);
    var c := ComponentOf(g.components, start);
    PruneExact(g, start);
    BuildCostsComplete(shortest, c);
    forall u | u in c
      ensures u !in NodesOf(Entries(costs, u))
    {
      BuildCostsHasNoSelfEntries(shortest, u);
    }
    GreedyCovers(costs, c, start, c);
  }

  /**
   * The plan is exactly the reference greedy tour: planning returns `t` iff at
   * least two vertices survive pruning and `t` takes, at every step, the first
   * cheapest not-yet-visited vertex of the start component.
   */
  lemma PlanIsGreedyTour(g: Graph, shortest: map<Node, seq<CostEntry>>, start: Node, t: seq<Node>)
    requires |Prune(g).vertex| >= 2 ==> start in Prune(g).vertex
    ensures PlanTour(g, shortest, start) == Ok(t) <==>
      |Prune(g).vertex| >= 2 && IsGreedyTour(BuildCosts(shortest), start, TourComponent(g, start), t)
  {
    GreedyMatchesReference(BuildCosts(shortest), start, TourComponent(g, start), t);
  }
}

=== FILE: recorders.dfy ===
/**
 * The data recorders: the sensor and estimate callbacks, each of which records
 * one row once the run has started and nothing before; the scan and
 * ground-truth callbacks also update the node's state before that check.
 *
 * Headings arrive already decoded: the quaternion-to-yaw conversion is not part
 * of this model, so every message carries its `theta` directly.
 */
module Recorders {
  import opened Wrappers

  datatype ScanMsg = ScanMsg(
    t: real, angleMin: real, angleMax: real, angleIncrement: real,
    rangeMin: real, rangeMax: real, ranges: seq<real>)

  datatype Particle = Particle(x: real, y: real, theta: real)

  datatype ParticlesMsg = ParticlesMsg(t: real, frameId: string, particles: seq<Particle>)

  /** A row of `amcl_particles.csv`: stamp, frame, particle count and the particle poses. */
  datatype ParticlesRow = ParticlesRow(t: real, frameId: string, n: nat, poses: seq<real>)

  /** The result of the `fixed_frame` to `robot_base_frame` transform lookup. */
  datatype TransformMsg = TransformMsg(t: real, x: real, y: real, theta: real)

  datatype EstimateRow = EstimateRow(t: real, x: real, y: real, theta: real)

  /** The row-major 6x6 covariance of a `PoseWithCovariance`, over (x, y, z, roll, pitch, yaw). */
  type Covariance = c: seq<real> | |c| == 36 witness seq(36, _ => 0.0)

  datatype CorrectionMsg = CorrectionMsg(t: real, x: real, y: real, theta: real, covariance: Covariance)

  datatype CorrectionRow = CorrectionRow(
    t: real, x: real, y: real, theta: real,
    covXX: real, covXY: real, covYY: real, covThetaTheta: real)

  datatype OdometryMsg = OdometryMsg(
    t: real, x: real, y: real, theta: real, vX: real, vY: real, vTheta: real)

  datatype GroundTruthRow = GroundTruthRow(
    t: real, x: real, y: real, theta: real, vX: real, vY: real, vTheta: real)

  /** The five recorded tables: the scan and particle files and the three data frames. */
  datatype Tables = Tables(
    scans: seq<ScanMsg>,
    particles: seq<ParticlesRow>,
    estimates: seq<EstimateRow>,
    corrections: seq<CorrectionRow>,
    groundTruth: seq<GroundTruthRow>)

  datatype Recorder = Recorder(
    runStarted: bool,
    receivedFirstScan: bool,
    latestGroundTruth: Option<OdometryMsg>,
    tables: Tables)

  /** The node's recorder state right after construction (lines 96-99, 127-129). */
  const Fresh := Recorder(false, false, None, Tables([], [], [], [], []))

  function RowCount(t: Tables): nat
  {
    |t.scans| + |t.particles| + |t.estimates| + |t.corrections| + |t.groundTruth|
  }

  // ---------------------------------------------------------------------------
  // Covariance

  /** The 36 covariance values read as a 6x6 matrix, six values per row, row after row. */
  function Reshape6(c: Covariance): (m: seq<seq<real>>)
    ensures |m| == 6 && forall i :: 0 <= i < 6 ==> |m[i]| == 6
    ensures forall i, j :: 0 <= i < 6 && 0 <= j < 6 ==> m[i][j] == c[6 * i + j]
  {
    seq(6, i requires 0 <= i < 6 => c[6 * i .. 6 * i + 6])
  }

  ghost predicate IsSquare6(m: seq<seq<real>>)
  {
    |m| == 6 && forall i :: 0 <= i < 6 ==> |m[i]| == 6
  }

  /** The inverse of the reshape: rows laid out one after the other. */
  function Flatten6(m: seq<seq<real>>): (c: Covariance)
    requires IsSquare6(m)
    ensures forall i, j :: 0 <= i < 6 && 0 <= j < 6 ==> c[6 * i + j] == m[i][j]
  {
    var c := m[0] + m[1] + m[2] + m[3] + m[4] + m[5];
    assert |c| == 36;
    c
  }

  /** Reshaping loses nothing: flattening the matrix gives back the array. */
  lemma ReshapeRoundTrip(c: Covariance)
    ensures Flatten6(Reshape6(c)) == c
  {
    var r := Flatten6(Reshape6(c));
    forall k | 0 <= k < 36
      ensures r[k] == c[k]
    {
      assert k == 6 * (k / 6) + k % 6;
    }
  }

  lemma FlattenRoundTrip(m: seq<seq<real>>)
    requires IsSquare6(m)
    ensures Reshape6(Flatten6(m)) == m
  {
    var r := Reshape6(Flatten6(m));
    forall i | 0 <= i < 6
      ensures r[i] == m[i]
    {
      assert forall j :: 0 <= j < 6 ==> r[i][j] == m[i][j];
    }
  }

  /**
   * Lines 359-374: the correction row keeps the pose and four covariance
   * entries, the x-x, x-y, y-y and yaw-yaw ones of the 6x6 matrix.
   */
  function CorrectionRowOf(m: CorrectionMsg): (row: CorrectionRow)
    ensures row.t == m.t && row.x == m.x && row.y == m.y && row.theta == m.theta
    ensures row.covXX == m.covariance[0] && row.covXY == m.covariance[1]
    ensures row.covYY == m.covariance[7] && row.covThetaTheta == m.covariance[35]
  {
    var cov := Reshape6(m.covariance);
    CorrectionRow(m.t, m.x, m.y, m.theta, cov[0][0], cov[0][1], cov[1][1], cov[5][5])
  }

  // ---------------------------------------------------------------------------
  // Particles

  /** Every particle's x, y and heading, one particle after the other. */
  function FlatPoses(ps: seq<Particle>): (r: seq<real>)
    ensures |r| == 3 * |ps|
    ensures forall k :: 0 <= k < |ps| ==>
      r[3 * k] == ps[k].x && r[3 * k + 1] == ps[k].y && r[3 * k + 2] == ps[k].theta
  {
    if ps == [] then []
    else
      var rest := FlatPoses(ps[1..]);
      var r := [ps[0].x, ps[0].y, ps[0].theta] + rest;
      assert forall k :: 1 <= k < |ps| ==> r[3 * k] == rest[3 * (k - 1)];
      r
  }

  function ParticlesRowOf(m: ParticlesMsg): (row: ParticlesRow)
    ensures row.t == m.t && row.frameId == m.frameId
    ensures row.n == |m.particles| && |row.poses| == 3 * row.n
    ensures forall k :: 0 <= k < row.n ==>
      row.poses[3 * k .. 3 * k + 3] == [m.particles[k].x, m.particles[k].y, m.particles[k].theta]
  {
    var poses := FlatPoses(m.particles);
    assert forall k :: 0 <= k < |m.particles| ==>
      poses[3 * k .. 3 * k + 3] == [poses[3 * k], poses[3 * k + 1], poses[3 * k + 2]];
    ParticlesRow(m.t, m.frameId, |m.particles|, poses)
  }

  // ---------------------------------------------------------------------------
  // The particle-poses field of a particles row as text

  /** A float rendering that never produces a comma, as Python's `str` of a float does not. */
  ghost predicate CommaFree(show: real -> string)
  {
    forall r :: ',' !in show(r)
  }

  function Commas(s: string): nat
  {
    if s == [] then 0 else (if s[0] == ',' then 1 else 0) + Commas(s[1..])
  }

  lemma {:induction false} CommasAppend(a: string, b: string)
    ensures Commas(a + b) == Commas(a) + Commas(b)
    decreases |a|
  {
    if a != [] {
      assert (a + b)[0] == a[0] && (a + b)[1..] == a[1..] + b;
      CommasAppend(a[1..], b);
    } else {
      assert a + b == b;
    }
  }

  lemma {:induction false} NoCommas(s: string)
    requires ',' !in s
    ensures Commas(s) == 0
    decreases |s|
  {
    if s != [] {
      assert forall k :: 0 <= k < |s[1..]| ==> s[1..][k] == s[k + 1];
      NoCommas(s[1..]);
    }
  }

  /** The fields in order with a comma and a space between each two of them. */
  function JoinComma(fields: seq<string>): string
  {
    if |fields| == 0 then ""
    else if |fields| == 1 then fields[0]
    else fields[0] + ", " + JoinComma(fields[1..])
  }

  function ShowAll(xs: seq<real>, show: real -> string): (r: seq<string>)
    ensures |r| == |xs|
  {
    if xs == [] then [] else [show(xs[0])] + ShowAll(xs[1..], show)
  }

  /**
   * Lines 320-328 as written: each particle renders as `x, y, theta`, and the
   * particles' strings are concatenated with nothing between them.
   */
  function PosesAsWritten(ps: seq<Particle>, show: real -> string): string
  {
    if ps == [] then ""
    else JoinComma([show(ps[0].x), show(ps[0].y), show(ps[0].theta)]) + PosesAsWritten(ps[1..], show)
  }

  /** The field as evidently intended: every pose value separated from the next. */
  function PosesField(ps: seq<Particle>, show: real -> string): string
  {
    JoinComma(ShowAll(FlatPoses(ps), show))
  }

  lemma Join3Commas(a: string, b: string, c: string)
    requires ',' !in a && ',' !in b && ',' !in c
    ensures Commas(JoinComma([a, b, c])) == 2
  {
    assert [a, b, c][1..] == [b, c] && [b, c][1..] == [c];
    assert JoinComma([b, c]) == b + ", " + c;
    assert JoinComma([a, b, c]) == a + ", " + (b + ", " + c);
    CommasAppend(a + ", ", b + ", " + c);
    CommasAppend(a, ", ");
    CommasAppend(b + ", ", c);
    CommasAppend(b, ", ");
    NoCommas(a);
    NoCommas(b);
    NoCommas(c);
  }

  /** As written, a field of `n` particles holds only two separators per particle. */
  lemma {:induction false} AsWrittenCommas(ps: seq<Particle>, show: real -> string)
    requires CommaFree(show)
    ensures Commas(PosesAsWritten(ps, show)) == 2 * |ps|
    decreases |ps|
  {
    if ps != [] {
      var head := JoinComma([show(ps[0].x), show(ps[0].y), show(ps[0].theta)]);
      Join3Commas(show(ps[0].x), show(ps[0].y), show(ps[0].theta));
      CommasAppend(head, PosesAsWritten(ps[1..], show));
      AsWrittenCommas(ps[1..], show);
    }
  }

  lemma {:induction false} JoinCommaCommas(fields: seq<string>)
    requires forall k :: 0 <= k < |fields| ==> ',' !in fields[k]
    ensures Commas(JoinComma(fields)) == if fields == [] then 0 else |fields| - 1
    decreases |fields|
  {
    if |fields| == 1 {
      NoCommas(fields[0]);
    } else if |fields| > 1 {
      JoinCommaCommas(fields[1..]);
      CommasAppend(fields[0] + ", ", JoinComma(fields[1..]));
      CommasAppend(fields[0], ", ");
      NoCommas(fields[0]);
    }
  }

  lemma {:induction false} ShowAllCommaFree(xs: seq<real>, show: real -> string)
    requires CommaFree(show)
    ensures forall k :: 0 <= k < |xs| ==> ',' !in ShowAll(xs, show)[k]
    decreases |xs|
  {
    if xs != [] {
      ShowAllCommaFree(xs[1..], show);
      var x := xs[0];
      assert ',' !in show(x);
      assert ShowAll(xs, show) == [show(x)] + ShowAll(xs[1..], show);
    }
  }

  /** The intended field separates all `3 n` values: one separator fewer than values. */
  lemma PosesFieldCommas(ps: seq<Particle>, show: real -> string)
    requires CommaFree(show)
    ensures Commas(PosesField(ps, show)) == if ps == [] then 0 else 3 * |ps| - 1
  {
    ShowAllCommaFree(FlatPoses(ps), show);
    JoinCommaCommas(ShowAll(FlatPoses(ps), show));
  }

  /**
   * With two or more particles the field as written is not the intended one:
   * the heading of each particle runs into the x of the next.
   */
  lemma AsWrittenMergesParticles(ps: seq<Particle>, show: real -> string)
    requires CommaFree(show) && |ps| >= 2
    ensures PosesAsWritten(ps, show) != PosesField(ps, show)
  {
    AsWrittenCommas(ps, show);
    PosesFieldCommas(ps, show);
  }

  /** With at most one particle the two renderings agree. */
  lemma AsWrittenAgreesOnOneParticle(ps: seq<Particle>, show: real -> string)
    requires |ps| <= 1
    ensures PosesAsWritten(ps, show) == PosesField(ps, show)
  {
    if |ps| == 1 {
      var p := ps[0];
      var fields := ShowAll(FlatPoses(ps), show);
      var xs := [p.x, p.y, p.theta];
      assert FlatPoses(ps) == xs;
      assert xs[1..] == [p.y, p.theta] && xs[1..][1..] == [p.theta] && xs[1..][1..][1..] == [];
      assert ShowAll([p.theta], show) == [show(p.theta)];
      assert ShowAll([p.y, p.theta], show) == [show(p.y), show(p.theta)];
      assert fields == [show(p.x), show(p.y), show(p.theta)];
      assert PosesAsWritten(ps[1..], show) == "";
    }
  }

  // ---------------------------------------------------------------------------
  // Callbacks

  /** Lines 299-313: the first scan is noted whether or not the run has started. */
  function OnScan(r: Recorder, m: ScanMsg): (r': Recorder)
    ensures r'.receivedFirstScan
    ensures r'.runStarted == r.runStarted && r'.latestGroundTruth == r.latestGroundTruth
    ensures !r.runStarted ==> r'.tables == r.tables
    ensures r.runStarted ==>
      RowCount(r'.tables) == RowCount(r.tables) + 1 && r'.tables == r.tables.(scans := r.tables.scans + [m])
  {
    var r1 := r.(receivedFirstScan := true);
    if !r.runStarted then r1 else r1.(tables := r.tables.(scans := r.tables.scans + [m]))
  }

  /** Lines 315-334. */
  function OnParticles(r: Recorder, m: ParticlesMsg): (r': Recorder)
    ensures r'.runStarted == r.runStarted && r'.receivedFirstScan == r.receivedFirstScan
    ensures r'.latestGroundTruth == r.latestGroundTruth
    ensures !r.runStarted ==> r'.tables == r.tables
    ensures r.runStarted ==>
      RowCount(r'.tables) == RowCount(r.tables) + 1
      && r'.tables == r.tables.(particles := r.tables.particles + [ParticlesRowOf(m)])
  {
    if !r.runStarted then r
    else r.(tables := r.tables.(particles := r.tables.particles + [ParticlesRowOf(m)]))
  }

  /** Lines 336-355: a failed transform lookup is logged and records nothing. */
  function OnEstimateTick(r: Recorder, lookup: Option<TransformMsg>): (r': Recorder)
    ensures r'.runStarted == r.runStarted && r'.receivedFirstScan == r.receivedFirstScan
    ensures r'.latestGroundTruth == r.latestGroundTruth
    ensures !r.runStarted || lookup.None? ==> r'.tables == r.tables
    ensures r.runStarted && lookup.Some? ==>
      RowCount(r'.tables) == RowCount(r.tables) + 1
      && r'.tables == r.tables.(estimates := r.tables.estimates
           + [EstimateRow(lookup.value.t, lookup.value.x, lookup.value.y, lookup.value.theta)])
  {
    if !r.runStarted then r
    else match lookup
      case None => r
      case Some(tf) =>
        r.(tables := r.tables.(estimates := r.tables.estimates + [EstimateRow(tf.t, tf.x, tf.y, tf.theta)]))
  }

  /** Lines 357-374. */
  function OnCorrection(r: Recorder, m: CorrectionMsg): (r': Recorder)
    ensures r'.runStarted == r.runStarted && r'.receivedFirstScan == r.receivedFirstScan
    ensures r'.latestGroundTruth == r.latestGroundTruth
    ensures !r.runStarted ==> r'.tables == r.tables
    ensures r.runStarted ==>
      RowCount(r'.tables) == RowCount(r.tables) + 1
      && r'.tables == r.tables.(corrections := r.tables.corrections + [CorrectionRowOf(m)])
  {
    if !r.runStarted then r
    else r.(tables := r.tables.(corrections := r.tables.corrections + [CorrectionRowOf(m)]))
  }

  /** Lines 376-393: the latest ground truth is kept whether or not the run has started. */
  function OnGroundTruth(r: Recorder, m: OdometryMsg): (r': Recorder)
    ensures r'.latestGroundTruth == Some(m)
    ensures r'.runStarted == r.runStarted && r'.receivedFirstScan == r.receivedFirstScan
    ensures !r.runStarted ==> r'.tables == r.tables
    ensures r.runStarted ==>
      RowCount(r'.tables) == RowCount(r.tables) + 1
      && r'.tables == r.tables.(groundTruth := r.tables.groundTruth
           + [GroundTruthRow(m.t, m.x, m.y, m.theta, m.vX, m.vY, m.vTheta)])
  {
    var r1 := r.(latestGroundTruth := Some(m));
    if !r.runStarted then r1
    else
      var row := GroundTruthRow(m.t, m.x, m.y, m.theta, m.vX, m.vY, m.vTheta);
      r1.(tables := r.tables.(groundTruth := r.tables.groundTruth + [row]))
  }

  // ---------------------------------------------------------------------------
  // Replaying what the node receives

  /** One delivery to the node: a message, an estimate-timer tick, or the start of the run (line 220). */
  datatype Inbound =
    | Scan(scan: ScanMsg)
    | Particles(particles: ParticlesMsg)
    | EstimateTick(lookup: Option<TransformMsg>)
    | Correction(correction: CorrectionMsg)
    | GroundTruth(odometry: OdometryMsg)
    | RunStarted

  function Receive(r: Recorder, m: Inbound): Recorder
  {
    match m
    case Scan(s) => OnScan(r, s)
    case Particles(p) => OnParticles(r, p)
    case EstimateTick(l) => OnEstimateTick(r, l)
    case Correction(c) => OnCorrection(r, c)
    case GroundTruth(o) => OnGroundTruth(r, o)
    case RunStarted => r.(runStarted := true)
  }

  function Replay(r: Recorder, ms: seq<Inbound>): Recorder
    decreases |ms|
  {
    if ms == [] then r else Replay(Receive(r, ms[0]), ms[1..])
  }

  /** The rows every delivery would produce with no gate at all. */
  function RecordAll(t: Tables, ms: seq<Inbound>): (t': Tables)
    ensures RowCount(t) <= RowCount(t')
    decreases |ms|
  {
    if ms == [] then t
    else RecordAll(Receive(Recorder(true, false, None, t), ms[0]).tables, ms[1..])
  }

  lemma {:induction false} ReplayAppend(r: Recorder, a: seq<Inbound>, b: seq<Inbound>)
    ensures Replay(r, a + b) == Replay(Replay(r, a), b)
    decreases |a|
  {
    if a != [] {
      assert (a + b)[0] == a[0] && (a + b)[1..] == a[1..] + b;
      ReplayAppend(Receive(r, a[0]), a[1..], b);
    } else {
      assert a + b == b;
    }
  }

  /** Before the run starts nothing is recorded, whatever arrives. */
  lemma {:induction false} ReplayBeforeStart(r: Recorder, ms: seq<Inbound>)
    requires !r.runStarted && RunStarted !in ms
    ensures !Replay(r, ms).runStarted && Replay(r, ms).tables == r.tables
    decreases |ms|
  {
    if ms != [] {
      assert RunStarted !in ms[1..];
      ReplayBeforeStart(Receive(r, ms[0]), ms[1..]);
    }
  }

  /** After the run starts every delivery is recorded as if there were no gate. */
  lemma {:induction false} ReplayAfterStart(r: Recorder, ms: seq<Inbound>)
    requires r.runStarted
    ensures Replay(r, ms).runStarted && Replay(r, ms).tables == RecordAll(r.tables, ms)
    decreases |ms|
  {
    if ms != [] {
      ReplayAfterStart(Receive(r, ms[0]), ms[1..]);
    }
  }

  /**
   * Whatever arrives before the run starts leaves no row: the tables hold
   * exactly the rows of what arrived after it.
   */
  lemma RecordsOnlyAfterStart(pre: seq<Inbound>, post: seq<Inbound>)
    requires RunStarted !in pre
    ensures Replay(Fresh, pre + [RunStarted] + post).tables == RecordAll(Fresh.tables, post)
  {
    ReplayAppend(Fresh, pre + [RunStarted], post);
    ReplayAppend(Fresh, pre, [RunStarted]);
    ReplayBeforeStart(Fresh, pre);
    ReplayAfterStart(Replay(Fresh, pre + [RunStarted]), post);
  }

  /** The first-scan flag is set by any scan, before or after the run starts. */
  lemma {:induction false} ReplayNotesFirstScan(r: Recorder, ms: seq<Inbound>)
    ensures Replay(r, ms).receivedFirstScan <==>
      r.receivedFirstScan || exists k :: 0 <= k < |ms| && ms[k].Scan?
    decreases |ms|
  {
    if ms != [] {
      ReplayNotesFirstScan(Receive(r, ms[0]), ms[1..]);
      if exists k :: 0 <= k < |ms[1..]| && ms[1..][k].Scan? {
        var k :| 0 <= k < |ms[1..]| && ms[1..][k].Scan?;
        assert ms[k + 1].Scan?;
      }
      if exists k :: 0 <= k < |ms| && ms[k].Scan? {
        var k :| 0 <= k < |ms| && ms[k].Scan?;
        if k > 0 {
          assert ms[1..][k - 1].Scan?;
        }
      }
    }
  }

  /** The latest ground truth is the last odometry message received, before or after the run starts. */
  lemma {:induction false} ReplayKeepsLatestGroundTruth(r: Recorder, ms: seq<Inbound>, k: nat)
    requires k < |ms| && ms[k].GroundTruth?
    requires forall j :: k < j < |ms| ==> !ms[j].GroundTruth?
    ensures Replay(r, ms).latestGroundTruth == Some(ms[k].odometry)
    decreases |ms|
  {
    if k == 0 {
      ReplayNoGroundTruth(Receive(r, ms[0]), ms[1..]);
    } else {
      ReplayKeepsLatestGroundTruth(Receive(r, ms[0]), ms[1..], k - 1);
    }
  }

  lemma {:induction false} ReplayNoGroundTruth(r: Recorder, ms: seq<Inbound>)
    requires forall j :: 0 <= j < |ms| ==> !ms[j].GroundTruth?
    ensures Replay(r, ms).latestGroundTruth == r.latestGroundTruth
    decreases |ms|
  {
    if ms != [] {
      ReplayNoGroundTruth(Receive(r, ms[0]), ms[1..]);
    }
  }
}

=== FILE: snapshots.dfy ===
/**
 * The process-snapshot timer: on every tick, the information of every tracked
 * process is collected, stripped of three bulky entries and pickled to a file
 * named after the tick counter.
 *
 * What `psutil` reports is an input: one probe per tracked process, `None`
 * when the process has died (`NoSuchProcess`). Whether `pickle.dump` raises
 * `TypeError` is an input too.
 */
module Snapshots {
  import opened Wrappers

  /** The entries deleted from every process's information before pickling. */
  const StrippedKeys: set<string> := {"connections", "memory_maps", "environ"}

  /** The contents of a snapshot file. */
  datatype Blob<V> =
    | Pickled(snapshot: seq<map<string, V>>)
    | Truncated  // opened for writing, then `pickle.dump` raised `TypeError`

  /**
   * The tick counter and the files written so far, keyed by the tick that
   * wrote them: tick `k` writes the file named `FileName(k)` (see `Names`),
   * and `FileNameInjective` shows that no two ticks share a file.
   */
  datatype Snapshotter<V> = Snapshotter(count: nat, files: map<nat, Blob<V>>)

  /** A process's information with the three entries deleted, when it has all of them. */
  function StripOne<V>(info: map<string, V>): Option<map<string, V>>
  {
    if StrippedKeys <= info.Keys then Some(info - StrippedKeys) else None
  }

  /** Whether a probe yields a snapshot entry, and which one. */
  ghost predicate Yields<V>(probe: Option<map<string, V>>, p: map<string, V>)
  {
    probe.Some? && StripOne(probe.value) == Some(p)
  }

  /**
   * Lines 398-411: dead processes are skipped; a process missing one of the
   * three entries raises `KeyError` on `del` and is skipped too.
   */
  function Strip<V>(probes: seq<Option<map<string, V>>>): (r: seq<map<string, V>>)
    ensures |r| <= |probes|
    ensures forall k :: 0 <= k < |r| ==> r[k].Keys !! StrippedKeys
  {
    if probes == [] then []
    else
      var rest := Strip(probes[1..]);
      match probes[0]
      case None => rest
      case Some(info) =>
        match StripOne(info)
        case None => rest
        case Some(p) => [p] + rest
  }

  /** The snapshot holds exactly the stripped information of the live processes that had all three entries. */
  lemma {:induction false} StripExact<V>(probes: seq<Option<map<string, V>>>, p: map<string, V>)
    ensures p in Strip(probes) <==> exists k :: 0 <= k < |probes| && Yields(probes[k], p)
    decreases |probes|
  {
    if probes != [] {
      StripExact(probes[1..], p);
      if exists k :: 0 <= k < |probes[1..]| && Yields(probes[1..][k], p) {
        var k :| 0 <= k < |probes[1..]| && Yields(probes[1..][k], p);
        assert Yields(probes[k + 1], p);
      }
      if exists k :: 0 <= k < |probes| && Yields(probes[k], p) {
        var k :| 0 <= k < |probes| && Yields(probes[k], p);
        if k > 0 {
          assert Yields(probes[1..][k - 1], p);
        }
      }
    }
  }

  /** One probe contributes at most one entry: its stripped information, when it yields one. */
  lemma StripSingle<V>(probe: Option<map<string, V>>)
    ensures Strip([probe]) == if probe.Some? && StripOne(probe.value).Some? then [StripOne(probe.value).value] else []
  {
    assert [probe][1..] == [];
  }

  /** The snapshot keeps the order of the tracked processes: stripping works process by process. */
  lemma {:induction false} StripAppend<V>(a: seq<Option<map<string, V>>>, b: seq<Option<map<string, V>>>)
    ensures Strip(a + b) == Strip(a) + Strip(b)
    decreases |a|
  {
    if a == [] {
      assert a + b == b;
    } else {
      assert (a + b)[0] == a[0] && (a + b)[1..] == a[1..] + b;
      StripAppend(a[1..], b);
    }
  }

  /** Stripping keeps everything but the three entries. */
  lemma StripOneKeeps<V>(info: map<string, V>, key: string)
    requires StripOne(info).Some? && key in info && key !in StrippedKeys
    ensures key in StripOne(info).value && StripOne(info).value[key] == info[key]
  {
  }

  /** When every tracked process has died, the snapshot is empty. */
  lemma {:induction false} AllDeadGivesEmpty<V>(probes: seq<Option<map<string, V>>>)
    requires forall k :: 0 <= k < |probes| ==> probes[k].None?
    ensures Strip(probes) == []
    decreases |probes|
  {
    if probes != [] {
      AllDeadGivesEmpty(probes[1..]);
    }
  }

  // ---------------------------------------------------------------------------
  // File names

  function DigitChar(d: nat): char
    requires d < 10
  {
    "0123456789"[d]
  }

  function DigitValue(c: char): nat
  {
    if '0' <= c <= '9' then (c as int - '0' as int) as nat else 0
  }

  /** The decimal digits of `i`, without leading zeros. */
  function Digits(i: nat): (s: string)
    ensures 1 <= |s|
    ensures forall k :: 0 <= k < |s| ==> '0' <= s[k] <= '9'
    decreases i
  {
    if i < 10 then [DigitChar(i)] else Digits(i / 10) + [DigitChar(i % 10)]
  }

  /** The number a string of decimal digits denotes, leading zeros allowed. */
  function Value(s: string): nat
    decreases |s|
  {
    if s == [] then 0 else 10 * Value(s[..|s| - 1]) + DigitValue(s[|s| - 1])
  }

  function Zeros(n: nat): (z: string)
    ensures |z| == n && forall k :: 0 <= k < n ==> z[k] == '0'
  {
    if n == 0 then [] else ['0'] + Zeros(n - 1)
  }

  /** `{i:08d}`: at least eight digits, zero-padded on the left. */
  function Pad8(d: string): (p: string)
    ensures |p| >= 8 && |p| >= |d|
    ensures |p| == (if |d| < 8 then 8 else |d|)
    ensures p[|p| - |d|..] == d && forall k :: 0 <= k < |p| - |d| ==> p[k] == '0'
  {
    if |d| < 8 then Zeros(8 - |d|) + d else d
  }

  /** Line 396: `ps_{i:08d}.pkl`. */
  function FileName(i: nat): string
  {
    "ps_" + Pad8(Digits(i)) + ".pkl"
  }

  predicate IsDigits(s: string)
  {
    forall k :: 0 <= k < |s| ==> '0' <= s[k] <= '9'
  }

  /** Reads a tick number back from a snapshot file name. */
  function ParseFileName(f: string): (r: Option<nat>)
  {
    if |f| >= 7 && f[..3] == "ps_" && f[|f| - 4..] == ".pkl" && IsDigits(f[3..|f| - 4])
    then Some(Value(f[3..|f| - 4]))
    else None
  }

  lemma {:induction false} DigitsValue(i: nat)
    ensures Value(Digits(i)) == i
    decreases i
  {
    if i >= 10 {
      DigitsValue(i / 10);
      var s := Digits(i);
      assert s[..|s| - 1] == Digits(i / 10);
      DigitRoundTrip(i % 10);
      assert Value(s) == 10 * (i / 10) + i % 10;
    } else {
      DigitRoundTrip(i);
      assert Digits(i)[..0] == [];
    }
  }

  lemma DigitRoundTrip(d: nat)
    requires d < 10
    ensures DigitValue(DigitChar(d)) == d
  {
  }

  lemma {:induction false} ZerosValue(n: nat)
    ensures Value(Zeros(n)) == 0
    decreases n
  {
    if n > 0 {
      var z := Zeros(n);
      assert z[..n - 1] == Zeros(n - 1);
      ZerosValue(n - 1);
    }
  }

  /** Leading zeros do not change the number. */
  lemma {:induction false} LeadingZeros(n: nat, d: string)
    ensures Value(Zeros(n) + d) == Value(d)
    decreases |d|
  {
    if d == [] {
      assert Zeros(n) + d == Zeros(n);
      ZerosValue(n);
    } else {
      var s := Zeros(n) + d;
      assert s[..|s| - 1] == Zeros(n) + d[..|d| - 1];
      LeadingZeros(n, d[..|d| - 1]);
    }
  }

  lemma PadValue(d: string)
    ensures Value(Pad8(d)) == Value(d)
    ensures IsDigits(d) ==> IsDigits(Pad8(d))
  {
    if |d| < 8 {
      LeadingZeros(8 - |d|, d);
    }
  }

  /** The tick number can be read back from the file name. */
  lemma FileNameRoundTrip(i: nat)
    ensures ParseFileName(FileName(i)) == Some(i)
  {
    var p := Pad8(Digits(i));
    var f := FileName(i);
    assert f[..3] == "ps_";
    assert f[|f| - 4..] == ".pkl";
    assert f[3..|f| - 4] == p;
    PadValue(Digits(i));
    DigitsValue(i);
  }

  /** Different ticks never write the same file. */
  lemma FileNameInjective(i: nat, j: nat)
    ensures FileName(i) == FileName(j) <==> i == j
  {
    FileNameRoundTrip(i);
    FileNameRoundTrip(j);
  }

  // ---------------------------------------------------------------------------
  // Ticks

  /**
   * Lines 395-419: one tick writes the file for the current count and then
   * advances the count, also when pickling raised `TypeError`.
   */
  function Tick<V>(s: Snapshotter<V>, probes: seq<Option<map<string, V>>>, serialisable: bool): (s': Snapshotter<V>)
    ensures s'.count == s.count + 1
    ensures s'.files.Keys == s.files.Keys + {s.count}
    ensures serialisable ==> s'.files[s.count] == Pickled(Strip(probes))
    ensures !serialisable ==> s'.files[s.count] == Truncated
    ensures forall k :: k in s.files && k != s.count ==> s'.files[k] == s.files[k]
  {
    var blob := if serialisable then Pickled(Strip(probes)) else Truncated;
    Snapshotter(s.count + 1, s.files[s.count := blob])
  }

  /** The names of the snapshot files on disk. */
  function Names<V>(s: Snapshotter<V>): set<string>
  {
    set k | k in s.files :: FileName(k)
  }

  /** A tick adds exactly the file named for the current count. */
  lemma TickNames<V>(s: Snapshotter<V>, probes: seq<Option<map<string, V>>>, serialisable: bool)
    ensures Names(Tick(s, probes, serialisable)) == Names(s) + {FileName(s.count)}
  {
    var s' := Tick(s, probes, serialisable);
    forall f | f in Names(s') ensures f in Names(s) + {FileName(s.count)} {
      var k :| k in s'.files && f == FileName(k);
      if k != s.count {
        assert k in s.files;
      }
    }
    assert s.count in s'.files;
  }

  /** A sequence of ticks, one per timer firing. */
  function Ticks<V>(s: Snapshotter<V>, probes: seq<seq<Option<map<string, V>>>>, serialisable: seq<bool>): (s': Snapshotter<V>)
    requires |serialisable| == |probes|
    ensures s'.count == s.count + |probes|
    decreases |probes|
  {
    if probes == [] then s
    else Ticks(Tick(s, probes[0], serialisable[0]), probes[1..], serialisable[1..])
  }

  /** The file of an earlier tick keeps its contents through later ticks. */
  lemma {:induction false} TicksKeepsEarlier<V>(
    s: Snapshotter<V>, probes: seq<seq<Option<map<string, V>>>>, serialisable: seq<bool>, k: nat)
    requires |serialisable| == |probes|
    requires k in s.files && k < s.count
    ensures k in Ticks(s, probes, serialisable).files
    ensures Ticks(s, probes, serialisable).files[k] == s.files[k]
    decreases |probes|
  {
    if probes != [] {
      var s1 := Tick(s, probes[0], serialisable[0]);
      TicksKeepsEarlier(s1, probes[1..], serialisable[1..], k);
    }
  }

  /**
   * After a sequence of ticks, the file of the `i`-th one holds the snapshot
   * of that tick's probes when pickling succeeded, and is truncated otherwise.
   */
  lemma {:induction false} TicksContents<V>(
    s: Snapshotter<V>, probes: seq<seq<Option<map<string, V>>>>, serialisable: seq<bool>, i: nat)
    requires |serialisable| == |probes| && i < |probes|
    ensures s.count + i in Ticks(s, probes, serialisable).files
    ensures Ticks(s, probes, serialisable).files[s.count + i]
      == if serialisable[i] then Pickled(Strip(probes[i])) else Truncated
    decreases |probes|
  {
    var s1 := Tick(s, probes[0], serialisable[0]);
    if i == 0 {
      TicksKeepsEarlier(s1, probes[1..], serialisable[1..], s.count);
    } else {
      TicksContents(s1, probes[1..], serialisable[1..], i - 1);
      assert probes[1..][i - 1] == probes[i] && serialisable[1..][i - 1] == serialisable[i];
    }
  }

  /** The names that `name` gives to ticks 0 to `n - 1`. */
  function ImageBelow<T>(name: nat -> T, n: nat): set<T>
  {
    if n == 0 then {} else ImageBelow(name, n - 1) + {name(n - 1)}
  }

  /** Every name below `n` is the name of some tick below `n`. */
  lemma {:induction false} ImageBelowWitness<T>(name: nat -> T, n: nat, x: T) returns (i: nat)
    requires x in ImageBelow(name, n)
    ensures i < n && x == name(i)
  {
    if x == name(n - 1) {
      i := n - 1;
    } else {
      i := ImageBelowWitness(name, n - 1, x);
    }
  }

  /** The name of every tick below `n` is among the names below `n`. */
  lemma {:induction false} ImageBelowHas<T>(name: nat -> T, n: nat, i: nat)
    requires i < n
    ensures name(i) in ImageBelow(name, n)
  {
    if i < n - 1 {
      ImageBelowHas(name, n - 1, i);
    }
  }

  /** When names never repeat, `n` ticks have `n` different names. */
  lemma {:induction false} ImageBelowCount<T>(name: nat -> T, n: nat)
    requires forall i: nat, j: nat :: name(i) == name(j) ==> i == j
    ensures |ImageBelow(name, n)| == n
  {
    if n > 0 {
      ImageBelowCount(name, n - 1);
      if name(n - 1) in ImageBelow(name, n - 1) {
        var i := ImageBelowWitness(name, n - 1, name(n - 1));
      }
    }
  }

  /** The names of the files of the first `n` ticks. */
  function NamesBelow(n: nat): set<string>
  {
    ImageBelow(FileName, n)
  }

  lemma NamesBelowExact(n: nat, f: string)
    ensures f in NamesBelow(n) <==> exists i :: 0 <= i < n && f == FileName(i)
  {
    if f in NamesBelow(n) {
      var i := ImageBelowWitness(FileName, n, f);
    }
    if exists i :: 0 <= i < n && f == FileName(i) {
      var i :| 0 <= i < n && f == FileName(i);
      ImageBelowHas(FileName, n, i);
    }
  }

  /** Since names never repeat, `n` ticks name `n` different files. */
  lemma NamesBelowCount(n: nat)
    ensures |NamesBelow(n)| == n
  {
    forall i: nat, j: nat | FileName(i) == FileName(j)
      ensures i == j
    {
      FileNameInjective(i, j);
    }
    ImageBelowCount(FileName, n);
  }

  /** The files of a snapshotter are exactly those of the ticks it has counted. */
  ghost predicate FilesMatchCount<V>(s: Snapshotter<V>)
  {
    forall k: nat :: k in s.files <==> k < s.count
  }

  /**
   * After any number of ticks, one file exists per tick counted, whether or
   * not pickling succeeded.
   */
  lemma {:induction false} TicksWriteOneFileEach<V>(
    s: Snapshotter<V>, probes: seq<seq<Option<map<string, V>>>>, serialisable: seq<bool>)
    requires |serialisable| == |probes|
    requires FilesMatchCount(s)
    ensures FilesMatchCount(Ticks(s, probes, serialisable))
    decreases |probes|
  {
    if probes != [] {
      TicksWriteOneFileEach(Tick(s, probes[0], serialisable[0]), probes[1..], serialisable[1..]);
    }
  }

  /** When the files are those of the ticks counted, their names are those of ticks 0 to count - 1. */
  lemma NamesOfCountedTicks<V>(s: Snapshotter<V>)
    requires FilesMatchCount(s)
    ensures Names(s) == NamesBelow(s.count)
  {
    forall f
      ensures f in Names(s) <==> f in NamesBelow(s.count)
    {
      NamesBelowExact(s.count, f);
      if exists i :: 0 <= i < s.count && f == FileName(i) {
        var i :| 0 <= i < s.count && f == FileName(i);
        assert i in s.files;
      }
    }
  }

  /**
   * From the node's start (count 0, no files), `n` ticks leave exactly `n`
   * files: those named for ticks 0 to `n - 1`.
   */
  lemma TicksFromStart<V>(probes: seq<seq<Option<map<string, V>>>>, serialisable: seq<bool>)
    requires |serialisable| == |probes|
    ensures var s := Ticks(Snapshotter(0, map[]), probes, serialisable);
      && s.count == |probes| && |Names(s)| == |probes|
      && forall f :: f in Names(s) <==> exists i :: 0 <= i < |probes| && f == FileName(i)
  {
    var s0: Snapshotter<V> := Snapshotter(0, map[]);
    TicksWriteOneFileEach(s0, probes, serialisable);
    NamesOfCountedTicks(Ticks(s0, probes, serialisable));
    NamesBelowCount(|probes|);
    forall f
      ensures f in NamesBelow(|probes|) <==> exists i :: 0 <= i < |probes| && f == FileName(i)
    {
      NamesBelowExact(|probes|, f);
    }
  }
}

=== FILE: supervisor.dfy ===
/**
 * `start_run` end to end: plan the tour, turn its vertices into goal poses,
 * write `run_start`, and run the dispatch loop.
 *
 * The random start vertex and the random goal headings are parameters: `start`
 * stands for `random.choice` over the pruned vertices and `yaw(k)` for the
 * heading drawn for the `k`-th waypoint.
 */
module Supervisor {
  import opened Wrappers
  import opened Geometry
  import opened Events
  import opened Planner
  import opened Dispatcher

  /** How `start_run` ended. */
  datatype Run =
    | PlanFailed(error: PlanError, events: seq<Event>)  // raised before any goal was sent
    | Dispatched(tour: seq<Node>, final: State)         // the dispatch loop ran

  /** Lines 197-203: one goal pose per tour vertex, at the vertex's position. */
  function Waypoints(vertex: map<Node, Point>, tour: seq<Node>, yaw: nat -> real): (w: seq<Waypoint>)
    requires forall k :: 0 <= k < |tour| ==> tour[k] in vertex
    ensures |w| == |tour|
    ensures forall k :: 0 <= k < |w| ==> w[k].position == vertex[tour[k]] && w[k].yaw == yaw(k)
  {
    seq(|tour|, k requires 0 <= k < |tour| => Waypoint(vertex[tour[k]], yaw(k)))
  }

  /**
   * Lines 164-273. A plan failure writes `insufficient_number_of_nodes_...`
   * when pruning leaves fewer than two vertices; an empty candidate list makes
   * the source's tuple unpacking raise, which writes nothing.
   */
  function StartRun(
    g: Graph, shortest: map<Node, seq<CostEntry>>, start: Node, yaw: nat -> real,
    outcomes: seq<GoalOutcome>, tolerance: real): (r: Run)
    requires Valid(g)
    requires |Prune(g).vertex| >= 2 ==> start in Prune(g).vertex
    ensures r == PlanFailed(PlanError.InsufficientNodes, [Event.InsufficientNodes]) <==> |Prune(g).vertex| < 2
    ensures r.PlanFailed? ==> Count(r.events, TargetPoseSet) == 0
    ensures r.PlanFailed? && r.error == NoCandidates ==> r.events == []
    ensures r.Dispatched? ==>
      && Elems(r.tour) == TourComponent(g, start) && Distinct(r.tour)
      && |r.final.plan| == |r.tour|
      && (forall k :: 0 <= k < |r.tour| ==> r.tour[k] in g.vertex && r.final.plan[k].position == g.vertex[r.tour[k]])
      && Inv(r.final)
      && |r.final.events| >= 1 && r.final.events[..1] == [RunStart]
  {
    match PlanTour(g, shortest, start)
    case Err(e) =>
      if e == PlanError.InsufficientNodes then PlanFailed(e, [Event.InsufficientNodes]) else PlanFailed(e, [])
    case Ok(tour) =>
      TourInGraph(g, shortest, start, tour);
      var plan := Waypoints(g.vertex, tour, yaw);
      DispatchFromStart(plan, outcomes, tolerance);
      Dispatched(tour, Dispatch(Start(plan), outcomes, tolerance))
  }

  lemma TourInGraph(g: Graph, shortest: map<Node, seq<CostEntry>>, start: Node, tour: seq<Node>)
    requires Valid(g)
    requires |Prune(g).vertex| >= 2 ==> start in Prune(g).vertex
    requires PlanTour(g, shortest, start) == Ok(tour)
    ensures forall k :: 0 <= k < |tour| ==> tour[k] in g.vertex
  {
    ComponentInGraph(g, start);
    assert Elems(tour) == TourComponent(g, start);
    forall k | 0 <= k < |tour|
      ensures tour[k] in g.vertex
    {
      assert tour[k] in Elems(tour);
    }
  }

  /**
   * A run dispatches exactly when planning succeeds; it then dispatches the
   * planner's greedy tour, in order, as waypoints at the tour's vertices.
   */
  lemma StartRunFollowsPlan(
    g: Graph, shortest: map<Node, seq<CostEntry>>, start: Node, yaw: nat -> real,
    outcomes: seq<GoalOutcome>, tolerance: real)
    requires Valid(g)
    requires |Prune(g).vertex| >= 2 ==> start in Prune(g).vertex
    ensures var r := StartRun(g, shortest, start, yaw, outcomes, tolerance);
      && (r.Dispatched? <==> PlanTour(g, shortest, start).Ok?)
      && (r.Dispatched? ==>
            && PlanTour(g, shortest, start) == Ok(r.tour)
            && (forall k :: 0 <= k < |r.tour| ==> r.tour[k] in g.vertex)
            && r.final == Dispatch(Start(Waypoints(g.vertex, r.tour, yaw)), outcomes, tolerance))
  {
    var planned := PlanTour(g, shortest, start);
    if planned.Ok? {
      PlannedTourIsDispatched(g, shortest, start, yaw, outcomes, tolerance, planned.value);
    } else {
      FailedPlanIsNotDispatched(g, shortest, start, yaw, outcomes, tolerance);
    }
  }

  lemma FailedPlanIsNotDispatched(
    g: Graph, shortest: map<Node, seq<CostEntry>>, start: Node, yaw: nat -> real,
    outcomes: seq<GoalOutcome>, tolerance: real)
    requires Valid(g)
    requires |Prune(g).vertex| >= 2 ==> start in Prune(g).vertex
    requires PlanTour(g, shortest, start).Err?
    ensures StartRun(g, shortest, start, yaw, outcomes, tolerance).PlanFailed?
  {
  }

  lemma PlannedTourIsDispatched(
    g: Graph, shortest: map<Node, seq<CostEntry>>, start: Node, yaw: nat -> real,
    outcomes: seq<GoalOutcome>, tolerance: real, tour: seq<Node>)
    requires Valid(g)
    requires |Prune(g).vertex| >= 2 ==> start in Prune(g).vertex
    requires PlanTour(g, shortest, start) == Ok(tour)
    ensures forall k :: 0 <= k < |tour| ==> tour[k] in g.vertex
    ensures StartRun(g, shortest, start, yaw, outcomes, tolerance)
      == Dispatched(tour, Dispatch(Start(Waypoints(g.vertex, tour, yaw)), outcomes, tolerance))
  {
    TourInGraph(g, shortest, start, tour);
  }

  /** Whatever the outcomes, the dispatch loop keeps its invariant and the ledger opens with `run_start`. */
  lemma DispatchFromStart(plan: seq<Waypoint>, outcomes: seq<GoalOutcome>, tolerance: real)
    ensures var s := Dispatch(Start(plan), outcomes, tolerance);
      && s.plan == plan && Inv(s) && |s.events| >= 1 && s.events[..1] == [RunStart]
  {
    DispatchPreservesInv(Start(plan), outcomes, tolerance);
    DispatchKeepsPrefix(Start(plan), outcomes, tolerance);
  }

  /** The events written so far are never rewritten by later iterations. */
  lemma {:induction false} DispatchKeepsPrefix(s: State, outcomes: seq<GoalOutcome>, tolerance: real)
    requires |s.events| >= 1
    ensures var s' := Dispatch(s, outcomes, tolerance);
      |s'.events| >= 1 && s'.events[..1] == s.events[..1]
    decreases |outcomes|
  {
    if s.stop.None? && outcomes != [] {
      var s1 := Step(s, outcomes[0], tolerance);
      StepExtends(s, outcomes[0], tolerance);
      DispatchKeepsPrefix(s1, outcomes[1..], tolerance);
    }
  }

  lemma StepExtends(s: State, o: GoalOutcome, tolerance: real)
    requires s.stop.None? && |s.events| >= 1
    ensures |Step(s, o, tolerance).events| >= 1 && Step(s, o, tolerance).events[..1] == s.events[..1]
  {
  }

  /**
   * Under a whole-component cost table, the run gets past planning with the
   * whole start component as its tour, and dispatches from the initial state.
   */
  lemma PlannedRunDispatches(
    g: Graph, shortest: map<Node, seq<CostEntry>>, start: Node, yaw: nat -> real,
    outcomes: seq<GoalOutcome>, tolerance: real)
    requires Valid(g)
    requires |Prune(g).vertex| >= 2 && start in Prune(g).vertex
    requires ReachesWholeComponent(shortest, ComponentOf(g.components, start))
    ensures var r := StartRun(g, shortest, start, yaw, outcomes, tolerance);
      && r.Dispatched? && |r.tour| == |ComponentOf(g.components, start)| >= 2
      && r.final == Dispatch(Start(r.final.plan), outcomes, tolerance)
  {
    PlanCoversStartComponent(g, shortest, start);
    var tour := PlanTour(g, shortest, start).value;
    ComponentInGraph(g, start);
  }

  /**
   * When Dijkstra reached the whole start component, the fatal
   * `insufficient_number_of_poses_in_traversal_path` event is never written:
   * the tour has at least two waypoints and the loop never finds its queue
   * empty at the head.
   */
  lemma PlannedRunNeverLacksPoses(
    g: Graph, shortest: map<Node, seq<CostEntry>>, start: Node, yaw: nat -> real,
    outcomes: seq<GoalOutcome>, tolerance: real)
    requires Valid(g)
    requires |Prune(g).vertex| >= 2 && start in Prune(g).vertex
    requires ReachesWholeComponent(shortest, ComponentOf(g.components, start))
    ensures var r := StartRun(g, shortest, start, yaw, outcomes, tolerance);
      && r.Dispatched? && |r.tour| >= 2
      && Count(r.final.events, InsufficientPoses) == 0
      && r.final.stop != Some(EmptyTour)
  {
    PlannedRunDispatches(g, shortest, start, yaw, outcomes, tolerance);
    var r := StartRun(g, shortest, start, yaw, outcomes, tolerance);
    StartedLoopNeverLacksPoses(r.final.plan, outcomes, tolerance);
  }

  /** A loop started on a non-empty plan never writes the insufficient-poses event. */
  lemma StartedLoopNeverLacksPoses(plan: seq<Waypoint>, outcomes: seq<GoalOutcome>, tolerance: real)
    requires plan != []
    ensures var s := Dispatch(Start(plan), outcomes, tolerance);
      Count(s.events, InsufficientPoses) == 0 && s.stop != Some(EmptyTour)
  {
    var s0 := Start(plan);
    assert Count([RunStart], InsufficientPoses) == 0 by {
      assert [RunStart][..0] == [];
    }
    NeverEmptyAtLoopHead(s0, outcomes, tolerance);
  }

  /**
   * With one nominal outcome per waypoint, the run visits the whole start
   * component: it ends with `run_completed`, and every vertex of the component
   * was sent as a goal and counted once as succeeded or failed.
   */
  lemma NominalRunVisitsComponent(
    g: Graph, shortest: map<Node, seq<CostEntry>>, start: Node, yaw: nat -> real,
    outcomes: seq<GoalOutcome>, tolerance: real)
    requires Valid(g)
    requires |Prune(g).vertex| >= 2 && start in Prune(g).vertex
    requires ReachesWholeComponent(shortest, ComponentOf(g.components, start))
    requires |outcomes| >= |ComponentOf(g.components, start)|
    requires forall k :: 0 <= k < |outcomes| ==> Nominal(outcomes[k])
    ensures var r := StartRun(g, shortest, start, yaw, outcomes, tolerance);
      && r.Dispatched?
      && r.final.stop == Some(Completed)
      && r.final.counters.sent == |ComponentOf(g.components, start)|
      && r.final.counters.succeeded + r.final.counters.failed == |ComponentOf(g.components, start)|
      && Count(r.final.events, TargetPoseSet) == |ComponentOf(g.components, start)|
  {
    PlannedRunDispatches(g, shortest, start, yaw, outcomes, tolerance);
    var s0 := Start(StartRun(g, shortest, start, yaw, outcomes, tolerance).final.plan);
    NominalRunCompletes(s0, outcomes, tolerance);
    DispatchPreservesInv(s0, outcomes, tolerance);
  }
}

=== FILE: wrappers.dfy ===
/** Failure-carrying wrappers shared by every module of the model. */
module Wrappers {

  /** A value that may be absent (Python's `None`). */
  datatype Option<+T> = None | Some(value: T)

  /** The outcome of an operation that can raise: a value or the error it raised. */
  datatype Result<+T, +E> = Ok(value: T) | Err(error: E)
}
